=== FILE: README.md ===
# Naming server of a distributed file system, in Dafny

This project models the core of the naming server of a small Java
distributed file system (package `naming`). The naming server keeps the
directory tree of the whole file system. It records which storage servers
hold each path, and it grants hierarchical shared/exclusive locks to
clients through a FIFO wait queue served by a scheduler thread. The model
covers these parts:

- **The directory tree** (`Directory`, `DirectoryTree`). A node has a name,
  a table of subdirectories and a set of file names. `Walk` is the
  reference resolver: it follows path components through subdirectory
  tables. Every tree operation of `NamingServer.java` is stated in terms
  of `Walk`:
  - the file and directory insertion loops;
  - `isDirectory` and `list`;
  - `getParentDir` and `getDirFromPath`;
  - the tree half of `delete`.

  A path is the sequence of its components, including the leading
  `data`; the root path `/` is the empty sequence.
- **Storage bookkeeping** (`StorageRegistry`):
  - the registered servers with their advertised sizes;
  - the per-path command-stub and client-stub lists;
  - the max-capacity placement rule of `createFile`/`createDirectory`;
  - the insertion loops that append a stub pair per path, and a second
    pair when inserting a file creates the root's first-level directory.
- **The lock state** (`LockScheduler`):
  - the grant step of the scheduler thread (`LockScheduler.run`), with its
    queue-size test, once as written and once as evidently intended;
  - `unlock`;
  - access counting with Java `int` wrap-around;
  - the every-20th-access replication trigger;
  - the wait queue with its FIFO discipline, as a trace of arrivals,
    scheduler rounds and releases.
- **The server facade** (`NamingServer`):
  - the existence guard and enqueueing of `lock`;
  - `createFile`, `createDirectory` and `delete`, each once as written and
    once as evidently intended;
  - `register`.
- **`FileAccess.compareTo`** (`FileAccess`): a total preorder on access
  counts.

Java exceptions become `Result` values (`NotFound` for
`FileNotFoundException`, `IllegalArgument`, `NullPointer`,
`IllegalMonitorState`). An operation
that mutates state and then throws returns an `Exec(state, result)` pair,
so the mutation stays visible. Busy-waits of the scheduler thread are
enabling conditions: a grant whose wait would spin is `None`, and the
request stays at the head of the queue. A scheduler thread that throws
stops for good (`SchedulerThread`).

Several inputs are explicit parameters:

- the iteration order of Java hash sets: `order` for `serverfiles`, and
  `pool` for `storageServerStubs` once `register` has added its record
  (a set, so the new record may come anywhere in it and an identical
  record is not added twice);
- the booleans that remote `create`/`delete` calls return;
- the size that a registering server reports.

### Where the code and its design description differ (the model follows the code)

- An exclusive grant never looks at the shared set. An exclusive request
  can therefore be granted while shared holders of the same path remain
  (`GrantEnabled`).
- Ancestors wait on the *shared* set, not the exclusive one. Two requests
  below a common ancestor therefore exclude each other, even when both are
  shared (`GrantEnabled`, `AcquireIntentionsEnabled`).
- `register` always answers `null` and reports no duplicates. It appends a
  stub pair for *every* known path, not only the new server's
  (`RegisterEffect`, `RegisterKeepsDuplicates`).
- A first shared access records the count 1. Later accesses increment it,
  and replication fires when the incremented count is a multiple of 20
  (`CountAccess`, `GrantReplication`).

## Model

| member | source | states |
|---|---|---|
| Directory.SetName | src/main/java/naming/Directory.java:25-27 | renames the node and leaves its subdirectories and files unchanged |
| Directory.SetSubDirs | src/main/java/naming/Directory.java:33-35 | replaces the subdirectory table and leaves the name and files unchanged |
| Directory.SetFiles | src/main/java/naming/Directory.java:41-43 | replaces the file set and leaves the name and subdirectories unchanged |
| Directory.ConstructorAndAccessors | src/main/java/naming/Directory.java:14-39 | the getters return the constructor's arguments; setting a field to the value just read leaves the node unchanged |
| DirectoryTree.InsertFileAtTarget | src/main/java/naming/NamingServer.java:461-501 | after the descent, the parent directory exists and holds the file name; an existing parent keeps its other entries; a parent that was missing is a new node holding only that name |
| DirectoryTree.InsertFileAtPrefixes | src/main/java/naming/NamingServer.java:461-499 | every ancestor on the way exists afterwards; an ancestor that existed keeps its name and files and gains at most the next component; one that was missing is a new node named by its component, with no files and only the next component below it |
| DirectoryTree.InsertFileAtFrame | src/main/java/naming/NamingServer.java:461-501 | walks to anything that is not an ancestor-or-self of the target directory resolve exactly as before |
| DirectoryTree.InsertFileEffect | src/main/java/naming/NamingServer.java:457-501 | a name already among the root's files leaves the tree unchanged; otherwise the parent path resolves and holds the name, and every walk outside the parent's ancestor chain is unchanged |
| DirectoryTree.InsertFileIdempotent | src/main/java/naming/NamingServer.java:457-501 | inserting the same path twice gives the same tree as inserting it once |
| DirectoryTree.InsertFileTopLevel | src/main/java/naming/NamingServer.java:457-501 | a file insertion never removes a directory or a file of the root node; when the name is not among the root's files and the path has a directory component, the root afterwards has a directory named by the first component |
| DirectoryTree.InsertDirectoryAsWritten | src/main/java/naming/NamingServer.java:535-552 | an empty path is a null dereference; a name already among the root's subdirectories leaves the tree unchanged; otherwise it fails iff the parent does not resolve, and on success the parent node is exactly the old one with the name added to its files and mapped to a fresh empty subdirectory, every node above it keeps its name, files and other subdirectories, and walks off that chain resolve as before |
| DirectoryTree.InsertDirectory | src/main/java/naming/NamingServer.java:535-552 | the intended insertion: the same guard, walk and failure cases; on success the parent node is exactly the old one with the name mapped to a fresh empty subdirectory and its files unchanged, every node above it keeps its name, files and other subdirectories, and walks off that chain resolve as before |
| DirectoryTree.IsDirectory | src/main/java/naming/NamingServer.java:206-237 | a wrong first component is NotFound; `/data` (the one-component path) is a directory, and `/` (the empty path) is an IllegalArgument; otherwise the answer is true iff the path resolves, false iff only the parent resolves, and NotFound iff the parent does not resolve |
| DirectoryTree.List | src/main/java/naming/NamingServer.java:239-274 | NotFound unless the path resolves; otherwise the answer is the node's files together with its subdirectory names, and (the `addAll` into the live set) the node's own file set grows by the subdirectory names, every node above it keeps its name, files and other subdirectories, and all other walks are unchanged |
| DirectoryTree.GetParentDir | src/main/java/naming/NamingServer.java:577-590 | yields a node iff the path has at least two components and its parent resolves, and then yields exactly the parent node; it raises iff a one-component path names no subdirectory of the root, or the grandparent of a longer path does not resolve |
| DirectoryTree.GetDirFromPath | src/main/java/naming/NamingServer.java:592-605 | yields a node iff the path resolves, and then yields that node; it raises exactly when the parent does not resolve |
| DirectoryTree.RemoveEntry | src/main/java/naming/NamingServer.java:373-391 | succeeds iff the parent resolves; the name leaves the parent's files when it is there, and otherwise leaves its subdirectories; the parent keeps its name and other entries, and every node above it keeps its name, files and other subdirectories |
| DirectoryTree.RemoveEntryFrame | src/main/java/naming/NamingServer.java:373-391 | walks that pass neither through the parent's ancestor chain nor into the removed entry are unchanged |
| DirectoryTree.DirectorySurvivesRemovalAsWritten | src/main/java/naming/NamingServer.java:543-552 | with the as-written insertion, deleting the new directory removes only its file entry, and the path still resolves to the empty subdirectory |
| DirectoryTree.DirectoryRemovedAfterInsert | src/main/java/naming/NamingServer.java:543-552 | with the intended insertion, deleting the new directory leaves the path unresolvable and the parent's files as they were |
| StorageRegistry.Placement | src/main/java/naming/NamingServer.java:290-300 | a chosen server has a positive size that no server exceeds, and it is the first server of that size in iteration order; no server is chosen iff every size is at most 0 |
| StorageRegistry.InsertFileRecord | src/main/java/naming/NamingServer.java:453-516 | fails iff the path is empty; otherwise it inserts the path into the tree and appends one command stub and one client stub to the path's lists, two of each when the insertion creates the root's first-level directory (whose stubs are keyed by the file's own text), and leaves the other paths' lists unchanged |
| StorageRegistry.InsertFileRecordTwice | src/main/java/naming/NamingServer.java:457-515 | a second insertion of the same path leaves the tree unchanged but appends exactly one more pair of stubs |
| StorageRegistry.InsertFileRecordsStatus | src/main/java/naming/NamingServer.java:448-524 | the loop reports true iff no path in the iteration order is empty |
| StorageRegistry.InsertFileRecordsKeys | src/main/java/naming/NamingServer.java:453-516 | a loop over non-empty paths leaves stub lists for exactly the old paths and the inserted ones |
| StorageRegistry.InsertFileRecordsFrame | src/main/java/naming/NamingServer.java:453-516 | a path the loop does not insert keeps both of its stub lists |
| StorageRegistry.InsertFileRecordsAppends | src/main/java/naming/NamingServer.java:453-516 | over distinct non-empty paths, each inserted path gains one stub of each kind, or two of each only if it has a directory component and the root lacked its first-level directory at the start |
| StorageRegistry.InsertDirectoryRecord | src/main/java/naming/NamingServer.java:526-575 | reports false iff the tree insertion fails, with nothing recorded; otherwise the path gets the intended directory node, its lists gain exactly one stub of each kind, and every other path's lists are unchanged |
| DirectoryTree.InsertFileHas | src/main/java/naming/NamingServer.java:457-501 | after a file insertion the tree records the file: its name is among the root's files or among those of the directory its parent path reaches |
| DirectoryTree.InsertFileKeeps | src/main/java/naming/NamingServer.java:457-501 | a file insertion keeps every file the tree recorded before it |
| StorageRegistry.InsertFileRecordsTree | src/main/java/naming/NamingServer.java:453-516 | over non-empty paths, the completed loop leaves every inserted path, and every file recorded before, as a file of the tree |
| LockScheduler.Inc32 | src/main/java/naming/LockScheduler.java:65 | Java `int` increment: adds one, except that the largest value wraps to the least; in every case the result is congruent to the input plus one modulo 2^32 |
| LockScheduler.AcquireIntentionsEnabled | src/main/java/naming/LockScheduler.java:46-51 | over distinct ancestors, the ancestor loop goes through iff no ancestor is already in the shared set |
| LockScheduler.CountAccess | src/main/java/naming/LockScheduler.java:64-72 | a first access records 1 and never replicates; a later access increments with wrap-around and replicates iff the new count is a multiple of 20; other paths keep their counts |
| LockScheduler.GrantEnabled | src/main/java/naming/LockScheduler.java:43-63 | a grant proceeds iff no ancestor is in the shared set and the target is not in the set of its own mode; an exclusive grant ignores the shared set |
| LockScheduler.GrantEffect | src/main/java/naming/LockScheduler.java:43-63 | a grant adds every ancestor to the shared set and the target to the set of its mode, and adds nothing else |
| LockScheduler.GrantCounts | src/main/java/naming/LockScheduler.java:53-72 | an exclusive grant leaves all counters alone; a shared grant sets its path's counter to 1 or adds one, and other counters are unchanged |
| LockScheduler.GrantReplication | src/main/java/naming/LockScheduler.java:64-69 | replication is requested, once, exactly when a shared grant brings an existing counter to a multiple of 20 |
| LockScheduler.ReleaseIntentionsComplete | src/main/java/naming/NamingServer.java:196-202 | over distinct ancestors, the release loop completes iff every ancestor is in the shared set |
| LockScheduler.FirstMissing | src/main/java/naming/NamingServer.java:196-200 | the index at which the release loop throws: every ancestor before it is held shared and the one at it is not |
| LockScheduler.ReleaseIntentionsStops | src/main/java/naming/NamingServer.java:196-202 | over distinct ancestors, the release loop removes exactly the ancestors before the first missing one, and completes iff none is missing |
| LockScheduler.Unlock | src/main/java/naming/NamingServer.java:179-203 | a target missing from its mode's set is IllegalArgument with nothing changed; otherwise the target is removed first, the call succeeds iff all ancestors are held shared, and the shared set loses exactly the ancestors before the first missing one (all of them on success); counters are untouched |
| LockScheduler.GrantUnlockRoundTrip | src/main/java/naming/LockScheduler.java:43-63 | a grant followed by the matching unlock succeeds and restores both lock sets exactly |
| LockScheduler.Schedule | src/main/java/naming/LockScheduler.java:37-75 | the intended round: it either leaves everything unchanged or takes the head of the queue, grants it and signals it; it moves iff the head's grant is enabled |
| LockScheduler.FreshScheduler | src/main/java/naming/LockScheduler.java:21-32 | the constructor over an empty queue: nothing queued, signalled or locked, and a recorded queue size of 0 |
| LockScheduler.PolledRound | src/main/java/naming/LockScheduler.java:35-77 | the head is looked at only when the queue is longer than the size recorded last; otherwise the round only records the current size; a round that grants records the size left after the grant |
| LockScheduler.PollingStrandsRequest | src/main/java/naming/LockScheduler.java:36-77 | two grantable requests queued together: the polled round grants the first, then every further round leaves the second waiting; two intended rounds grant both |
| LockScheduler.ScheduleAsWritten | src/main/java/naming/LockScheduler.java:35-77 | as written, a round throws iff the queue grew and the head's grant is enabled; the head has then left the queue, the sets and counters are updated, nothing is signalled, and the error is a null dereference iff replication fires and an illegal-monitor-state error otherwise; a round that does not throw changes no queue, lock or signal, and records the queue length as seen only when no request was waiting |
| LockScheduler.TwentiethGrantAsWritten | src/main/java/naming/ReplicationHandler.java:9-25 | a twentieth shared grant of a path, reached in a round that polls, ends the scheduler with a null dereference; the request has left the queue and its caller is never signalled |
| LockScheduler.TwentiethGrant | src/main/java/naming/LockScheduler.java:64-69 | with the intended hand-off, the twentieth shared grant queues the path for replication, sets its count to 20 and signals the caller |
| LockScheduler.RunIsFifo | src/main/java/naming/LockScheduler.java:36-38 | over any trace, the signalled requests followed by the waiting ones are exactly the requests in arrival order |
| LockScheduler.RunSignalsPrefix | src/main/java/naming/LockScheduler.java:36-75 | the signalled requests are always a prefix of the arrival order: no request is granted before an earlier arrival |
| LockScheduler.RunAsWrittenNeverSignals | src/main/java/naming/LockScheduler.java:34-79 | the thread as written, started with no counters, never signals any caller over any trace; no counter exceeds 1; at most one request ever leaves the queue |
| NamingServer.Init | src/main/java/naming/NamingServer.java:76-89 | a new server has an empty root named `data`, no paths, no servers, no stubs, an empty queue and no locks, which is exactly a fresh scheduler |
| NamingServer.ContainsObject | src/main/java/naming/NamingServer.java:355 | a `Set<common.Path>` contains only `common.Path` objects: a string or a `java.nio.file.Path` is never found |
| NamingServer.Lock | src/main/java/naming/NamingServer.java:141-177 | an unknown path is NotFound; a known path appends its request to the tail of the wait queue and changes nothing else: lock sets, signalled callers, the recorded queue size, the catalog, the known paths and the servers stay |
| NamingServer.FirstFailure | src/main/java/naming/NamingServer.java:362-369 | the index of the first replica that refused, or the replica count when none refused |
| NamingServer.ReplicasCalled | src/main/java/naming/NamingServer.java:362-369 | the fan-out stops right after the first refusal and calls every replica when none refuses |
| NamingServer.DeleteReadsCalledReplies | src/main/java/naming/NamingServer.java:362-369 | the outcome of delete depends only on the replies of the replicas the fan-out actually calls |
| NamingServer.DeleteAfterGuard | src/main/java/naming/NamingServer.java:358-398 | no stub list is a null dereference; any refusal answers false with nothing changed; when every replica agrees the call succeeds iff the parent resolves (otherwise a null dereference with nothing changed), and on success the tree entry and both stub lists of the path are gone, and `serverfiles` is left as it was |
| NamingServer.Delete | src/main/java/naming/NamingServer.java:352-406 | the intended delete: unknown paths are NotFound; a known path without stubs is a null dereference; the answer is false iff some replica refuses, with nothing changed; when all agree it succeeds iff the parent resolves; on success the path leaves `serverfiles`, its stub lists and its parent's entries, and every other path keeps both stub lists |
| NamingServer.DeleteGuardDiscrepancy | src/main/java/naming/NamingServer.java:355 | as written, delete refuses every path with NotFound and changes nothing; the intended guard lets every registered path through |
| NamingServer.DeleteRemovesFile | src/main/java/naming/NamingServer.java:373-397 | after a successful delete of a file, the parent lists the name neither as a file nor as a subdirectory, and the path is no longer known |
| NamingServer.CreateFile | src/main/java/naming/NamingServer.java:276-313 | a path with fewer than two components is IllegalArgument; an unknown parent is NotFound; with no server of positive size the null stub is dereferenced; a refused remote create answers false with nothing changed; true iff the remote create succeeds, and then the path is known, in the tree, and gains the chosen server's stub pair (twice when its first-level directory is created) while other paths keep their lists |
| NamingServer.CreateFileRecordsStubs | src/main/java/naming/NamingServer.java:303-310 | a successful creation appends the chosen server's stub pair to the new path's lists, twice when the root's first-level directory is created with it, and leaves every other path's lists unchanged |
| NamingServer.CreateFileGuardDiscrepancy | src/main/java/naming/NamingServer.java:284-288 | as written, createFile always throws and changes nothing; the intended guard creates the file when the parent is known and a server has room |
| NamingServer.CreateFileThenQueries | src/main/java/naming/NamingServer.java:305-310 | after a successful createFile, the parent resolves and holds the new name (so `list` returns it), and a path that did not resolve before still does not |
| NamingServer.CreateDirectory | src/main/java/naming/NamingServer.java:315-350 | the same guards and answers as createFile; on success the path is known, and when the tree insertion succeeds the path gets a directory node and exactly one more command and client stub of the chosen server while other paths keep their lists; when it fails the catalog is unchanged |
| NamingServer.CreateDirectoryGuardDiscrepancy | src/main/java/naming/NamingServer.java:323-327 | as written, createDirectory always throws and changes nothing; the intended guard creates the directory when the parent is known and a server has room |
| NamingServer.RegisterEffect | src/main/java/naming/NamingServer.java:420-446 | the reply is null; the server list gains the new record iff its size is known, holding exactly the old records and the new one, which adds one entry to a list without repeats only when it is not already there; its paths become known; locks are untouched; with no empty path, exactly the known paths gain stub lists, each gaining the new server's pair once, or twice only for a path whose first-level directory was missing, and every known path is a file of the resulting tree |
| NamingServer.RegisterKeepsDuplicates | src/main/java/naming/NamingServer.java:436-445 | a path already held by another server is not reported; its stub list keeps the earlier entries and gains one or two entries of the new server, exactly one when its first-level directory already existed |
| FileAccess.CompareTo | src/main/java/naming/FileAccess.java:31-39 | 1, -1 or 0 exactly when this count is greater than, less than or equal to the other's |
| FileAccess.Antisymmetric | src/main/java/naming/FileAccess.java:31-39 | swapping the arguments negates the answer |
| FileAccess.Reflexive | src/main/java/naming/FileAccess.java:31-39 | every element compares equal to itself |
| FileAccess.Transitive | src/main/java/naming/FileAccess.java:31-39 | the induced order is transitive (strict and non-strict) and total |
| FileAccess.PathIrrelevant | src/main/java/naming/FileAccess.java:31-39 | the path plays no part: equal counts compare 0, and changing either path changes no answer |

## Left out

- Networking, the RMI layer, `StorageServer` and its stubs, and the listener threads: they are foreign calls. Their results are parameters (the remote `create` answer, the remote `delete` answers, the reported size).
- `start`/`stop` and the `ReplicationHandler` thread: thread lifecycle; only the hand-off to `replicateFile` is modelled (`hotPaths`).
- The condition-variable handshake in `lock` (NamingServer.java:146-164, which waits while the path is *in* the lock set, after the grant) and the scheduler's spin-waits: thread timing. A scheduler round is one atomic step that grants the head or leaves it waiting; the queue-size test is modelled (`PolledRound`, `ScheduleAsWritten`).
- LockScheduler.Grant: an ancestor acquired before the scheduler blocks on a later ancestor stays in the shared set while it spins. The model grants all ancestors together or none, so that partially held state is not represented.
- `getStorage`: it picks a replica with `java.util.Random`, bounded by the number of servers rather than the number of replicas. Randomness is left out.
- The stub lists that `addFilesToDirectoryTree` records for intermediate directories created below the first level (NamingServer.java:476-494): their key is `path.subpath(0, i).toString()`, a relative text without the leading `/`, which no `getPath()` lookup matches. The first-level directory's pair is modelled, because its key (:474) is the file path's own text.
- Locking inside client operations: `isDirectory`, `list`, `createFile`, `createDirectory` and `delete` call `lock`/`unlock` around their bodies, and skip `unlock` on early returns and exceptions. The lock calls are modelled on their own (`NamingServer.Lock`, `LockScheduler.Unlock`) and are not composed into those operations.
- DirectoryTree.RemoveEntry: removing a key from `getSubDirs()` while iterating its `keySet()` (NamingServer.java:386-390) can raise `ConcurrentModificationException`. The model removes the entry cleanly.
- NamingServer.CreateFile: the `lock(file, true)` at NamingServer.java:279 runs the existence guard of `lock` (:143-144) before anything else, so for a path not yet in `serverfiles` the call throws `FileNotFoundException` there. The model leaves lock calls out of the operation (see above) and starts at the parent guard. An `RMIException` from the remote `create` (:303) is not modelled: the remote answer is the `created` parameter.
- NamingServer.CreateDirectory: the same `lock(directory, true)` guard at :318 throws for every new path, and the `RMIException` from the remote `create` (:340) is not modelled either.
- NamingServer.Delete: an `RMIException` from a replica is treated as the same `false` answer as a refusal, which is how the `catch` at :399-403 ends.
- FileAccess.CompareTo: a `null` `Integer` count would throw on unboxing. Counts are unbounded integers here, which order the same way as Java `Integer` values.
- `common.Path` is not part of this model. Its `getParentPathList` is taken to list every strict prefix of a path, root first, which is what `Paths.ParentPathList` computes.
- The `mytest` drivers: they are not part of the server.

## Findings

| source | as written | input that shows it | evidently intended | confidence | as-written member | corrected member |
|---|---|---|---|---|---|---|
| src/main/java/naming/NamingServer.java:355 | `serverfiles.contains(path.getPath())` asks a `Set<common.Path>` about a `String`, so it is always false; the `serverfiles.remove` at :393 removes nothing for the same reason | any registered path, e.g. `/data/a.txt` after `register` | look up and remove the path itself | high, not executed | NamingServer.DeleteGuardDiscrepancy | NamingServer.Delete |
| src/main/java/naming/NamingServer.java:284-285 | `createFile` asks `serverfiles` about a `java.nio.file.Path`, so the guard always throws `FileNotFoundException` | `/data/dir/a.txt` already in `serverfiles` (so the lock guard at :143 lets it through) with `/data/dir` registered too | look up the parent as a `common.Path` | high, not executed | NamingServer.CreateFileGuardDiscrepancy | NamingServer.CreateFile |
| src/main/java/naming/NamingServer.java:323-324 | `createDirectory` has the same mismatched guard | `/data/dir/sub` already in `serverfiles` (so the lock guard at :143 lets it through) with `/data/dir` registered too | look up the parent as a `common.Path` | high, not executed | NamingServer.CreateDirectoryGuardDiscrepancy | NamingServer.CreateDirectory |
| src/main/java/naming/ReplicationHandler.java:9 | `fileQueue` is never initialised, so `replicateFile` (called at LockScheduler.java:68) dereferences null and ends the scheduler thread mid-round | twenty shared locks of the same path, once the signal at LockScheduler.java:75 is made under its lock (as written, the first grant already ends the thread, so a count of 19 is never reached) | hand the path to an initialised queue and signal the caller | medium, not executed | LockScheduler.TwentiethGrantAsWritten | LockScheduler.TwentiethGrant |
| src/main/java/naming/NamingServer.java:543-552 | a new directory's name goes into the parent's files as well as its subdirectories, so `delete` (:378-391) removes only the file entry and the directory stays reachable | create `/data/d/e` as a directory, with `/data/d/e` already in `serverfiles` so that the `lock` guard at :143-144 lets the call through, then delete it; reachable only once the guards at :323 and :355 are corrected, and `list` and `register` also put directory names among files | record the name as a subdirectory only | low, not executed | DirectoryTree.DirectorySurvivesRemovalAsWritten | DirectoryTree.DirectoryRemovedAfterInsert |
| src/main/java/naming/LockScheduler.java:75 | `conditionVariable.signal()` is called by the scheduler thread, which never holds the `ReentrantLock` the condition was made from (NamingServer.java:146), so every grant throws `IllegalMonitorStateException` and `run` ends before any caller is signalled | any first lock request on a registered path | acquire the lock around the signal | high, not executed | LockScheduler.RunAsWrittenNeverSignals | LockScheduler.Schedule |
| src/main/java/naming/LockScheduler.java:36 | the head is looked at only when the queue is longer than the size recorded at :77 after the previous round, so of two requests queued between rounds only the first is served until another arrives | two grantable requests enqueued before the scheduler's next round, once the signal at :75 is made under its lock (as written, the first grant already ends `run`, so the second request is never served at all) | serve the queue while it is non-empty | high, not executed | LockScheduler.PollingStrandsRequest | LockScheduler.Schedule |

=== FILE: directory.dfy ===
/** The directory tree node of the naming server (naming/Directory.java).

    A node has a name, its subdirectories keyed by name, and the names of
    the files it holds directly. The Java class is mutable and its getters
    hand out the live collections; here a node is an immutable value and a
    setter returns the updated node. */
module Directory {

  datatype Dir = Dir(name: string, subDirs: map<string, Dir>, files: set<string>)

  /** `setName`: renames the node and keeps its contents. */
  function SetName(d: Dir, n: string): (r: Dir)
    ensures r.name == n
    ensures r.subDirs == d.subDirs && r.files == d.files
  {
    d.(name := n)
  }

  /** `setSubDirs`: replaces the subdirectory table and nothing else. */
  function SetSubDirs(d: Dir, s: map<string, Dir>): (r: Dir)
    ensures r.subDirs == s
    ensures r.name == d.name && r.files == d.files
  {
    d.(subDirs := s)
  }

  /** `setFiles`: replaces the file-name set and nothing else. */
  function SetFiles(d: Dir, f: set<string>): (r: Dir)
    ensures r.files == f
    ensures r.name == d.name && r.subDirs == d.subDirs
  {
    d.(files := f)
  }

  /** A node built as `new Directory(name, new Hashtable(), new HashSet())`. */
  function EmptyDir(name: string): (r: Dir)
    ensures r.name == name && r.subDirs == map[] && r.files == {}
  {
    Dir(name, map[], {})
  }

  /** The constructor stores its three arguments and the getters return
      them; setting a field to the value just read leaves the node as it was. */
  lemma ConstructorAndAccessors(n: string, s: map<string, Dir>, f: set<string>)
    ensures Dir(n, s, f).name == n && Dir(n, s, f).subDirs == s && Dir(n, s, f).files == f
    ensures var d := Dir(n, s, f); SetName(d, d.name) == d && SetSubDirs(d, d.subDirs) == d && SetFiles(d, d.files) == d
  {
  }
}

=== FILE: directory_tree.dfy ===
/** The naming server's directory tree and the operations NamingServer.java
    performs on it: file and directory insertion, `isDirectory`, `list`,
    `getParentDir`, `getDirFromPath` and the tree half of `delete`.

    The tree is the node `directoryTree`, named "data". Inserting a path
    stores EVERY component under that node, the leading "data" included, so
    the directory "/data/a" is the node reached from the root by the child
    "data" and then the child "a". `Walk` is that descent, and it is the
    reference against which every operation here is stated. */
module DirectoryTree {
  import opened Outcomes
  import opened Paths
  import opened Directory

  /** The node reached from `d` by following `comps` through subdirectory
      tables, or `None` when some component is not a subdirectory. */
  function Walk(d: Dir, comps: Path): Option<Dir>
    decreases |comps|
  {
    if comps == [] then Some(d)
    else if comps[0] in d.subDirs then Walk(d.subDirs[comps[0]], comps[1..])
    else None
  }

  /** Walking a concatenation walks the first part, then the second part
      from wherever the first part ended. */
  lemma {:induction false} WalkAppend(d: Dir, a: Path, b: Path)
    ensures Walk(d, a + b) == (if Walk(d, a).Some? then Walk(Walk(d, a).value, b) else None)
    decreases |a|
  {
    if a == [] {
      assert a + b == b;
    } else {
      assert (a + b)[0] == a[0];
      assert (a + b)[1..] == a[1..] + b;
      if a[0] in d.subDirs {
        WalkAppend(d.subDirs[a[0]], a[1..], b);
      }
    }
  }

  /** One more step of a walk: the form the source's loops take. */
  lemma WalkSnoc(d: Dir, q: Path, x: string)
    ensures Walk(d, q + [x]) ==
      (if Walk(d, q).Some? && x in Walk(d, q).value.subDirs then Some(Walk(d, q).value.subDirs[x]) else None)
  {
    WalkAppend(d, q, [x]);
  }

  /** Once a walk fails, every longer walk through it fails too. */
  lemma WalkNonePrefix(d: Dir, q: Path, p: Path)
    requires IsPrefix(q, p) && Walk(d, q).None?
    ensures Walk(d, p).None?
  {
    assert p == q + p[|q|..];
    WalkAppend(d, q, p[|q|..]);
  }

  /** `t` differs from `d` only along `comps`: every node that `comps`
      passes through keeps its name, its files and all its subdirectories
      but the next one on the path. The node at the end is unconstrained. */
  predicate ChangedOnlyAlong(d: Dir, t: Dir, comps: Path)
    decreases |comps|
  {
    comps == [] ||
    (&& t.name == d.name && t.files == d.files
     && comps[0] in d.subDirs && comps[0] in t.subDirs
     && t.subDirs == d.subDirs[comps[0] := t.subDirs[comps[0]]]
     && ChangedOnlyAlong(d.subDirs[comps[0]], t.subDirs[comps[0]], comps[1..]))
  }

  /** A change along `comps` is invisible to every walk that neither passes
      through the end of `comps` nor stops above it. */
  lemma {:induction false} ChangedOnlyAlongWalk(d: Dir, t: Dir, comps: Path, q: Path)
    requires ChangedOnlyAlong(d, t, comps)
    requires !IsPrefix(q, comps) && !IsPrefix(comps, q)
    ensures Walk(t, q) == Walk(d, q)
    decreases |comps|
  {
    assert q != [] && comps != [];
    if q[0] == comps[0] {
      PrefixTail(q, comps);
      PrefixTail(comps, q);
      ChangedOnlyAlongWalk(d.subDirs[comps[0]], t.subDirs[comps[0]], comps[1..], q[1..]);
    }
  }

  /** `ChangedOnlyAlongWalk` for every such walk at once. */
  lemma ChangedOnlyAlongFrame(d: Dir, t: Dir, comps: Path)
    requires ChangedOnlyAlong(d, t, comps)
    ensures forall q :: !IsPrefix(q, comps) && !IsPrefix(comps, q) ==> Walk(t, q) == Walk(d, q)
  {
    forall q | !IsPrefix(q, comps) && !IsPrefix(comps, q)
      ensures Walk(t, q) == Walk(d, q)
    {
      ChangedOnlyAlongWalk(d, t, comps, q);
    }
  }

  /** Replaces the node at `comps` by `n`, as an in-place mutation of the
      Java node reached by the same walk would. */
  function ReplaceAt(d: Dir, comps: Path, n: Dir): (r: Dir)
    requires Walk(d, comps).Some?
    ensures Walk(r, comps) == Some(n)
    ensures ChangedOnlyAlong(d, r, comps)
    decreases |comps|
  {
    if comps == [] then n
    else d.(subDirs := d.subDirs[comps[0] := ReplaceAt(d.subDirs[comps[0]], comps[1..], n)])
  }

  /** Replacing a node changes no walk that neither passes through it nor
      ends above it. */
  lemma {:induction false} ReplaceAtFrame(d: Dir, comps: Path, n: Dir, q: Path)
    requires Walk(d, comps).Some?
    requires !IsPrefix(q, comps) && !IsPrefix(comps, q)
    ensures Walk(ReplaceAt(d, comps, n), q) == Walk(d, q)
    decreases |comps|
  {
    var r := ReplaceAt(d, comps, n);
    assert q != [] && comps != [];
    if q[0] == comps[0] {
      PrefixTail(q, comps);
      PrefixTail(comps, q);
      ReplaceAtFrame(d.subDirs[comps[0]], comps[1..], n, q[1..]);
    }
  }

  /** Below the replaced node, walks continue inside the new node. */
  lemma ReplaceAtBelow(d: Dir, comps: Path, n: Dir, q: Path)
    requires Walk(d, comps).Some?
    requires IsPrefix(comps, q)
    ensures Walk(ReplaceAt(d, comps, n), q) == Walk(n, q[|comps|..])
  {
    assert q == comps + q[|comps|..];
    WalkAppend(ReplaceAt(d, comps, n), comps, q[|comps|..]);
  }

  // ---------------------------------------------------------------------
  // File insertion (addFilesToDirectoryTree, tree part)
  // ---------------------------------------------------------------------

  /** Descends `dirs` from `d`, creating each missing component as a new
      empty directory and reusing existing ones, then adds `name` to the
      file set of the node reached. */
  function InsertFileAt(d: Dir, dirs: Path, name: string): Dir
    decreases |dirs|
  {
    if dirs == [] then d.(files := d.files + {name})
    else
      var child := if dirs[0] in d.subDirs then d.subDirs[dirs[0]] else EmptyDir(dirs[0]);
      d.(subDirs := d.subDirs[dirs[0] := InsertFileAt(child, dirs[1..], name)])
  }

  /** After the descent, the target directory exists and holds `name`: it is
      the old node with `name` added, or, when the path was missing, a new
      node carrying the last component's name and only `name`. */
  lemma {:induction false} InsertFileAtTarget(d: Dir, dirs: Path, name: string)
    ensures Walk(d, dirs).Some? ==>
      Walk(InsertFileAt(d, dirs, name), dirs) == Some(Walk(d, dirs).value.(files := Walk(d, dirs).value.files + {name}))
    ensures Walk(d, dirs).None? ==>
      |dirs| > 0 && Walk(InsertFileAt(d, dirs, name), dirs) == Some(Dir(dirs[|dirs| - 1], map[], {name}))
    decreases |dirs|
  {
    if dirs != [] {
      var child := if dirs[0] in d.subDirs then d.subDirs[dirs[0]] else EmptyDir(dirs[0]);
      InsertFileAtTarget(child, dirs[1..], name);
      var after := InsertFileAt(d, dirs, name);
      assert Walk(after, dirs) == Walk(InsertFileAt(child, dirs[1..], name), dirs[1..]);
      if dirs[0] !in d.subDirs {
        if dirs[1..] == [] {
          assert Walk(child, dirs[1..]) == Some(child);
          assert child.(files := child.files + {name}) == Dir(dirs[0], map[], {name});
          assert dirs[|dirs| - 1] == dirs[0];
        } else {
          assert Walk(child, dirs[1..]).None?;
          assert dirs[1..][|dirs[1..]| - 1] == dirs[|dirs| - 1];
        }
      }
    }
  }

  /** Every ancestor of the target exists afterwards. A directory that
      existed before keeps its name and files and gains at most the next
      component as a subdirectory name; one that was missing is new, named
      by its component, with no files and only the next component below it
      (NamingServer.java:463-470). */
  lemma {:induction false} InsertFileAtPrefixes(d: Dir, dirs: Path, name: string, k: nat)
    requires k < |dirs|
    ensures Walk(InsertFileAt(d, dirs, name), dirs[..k]).Some?
    ensures Walk(d, dirs[..k]).Some? ==>
      var before := Walk(d, dirs[..k]).value;
      var after := Walk(InsertFileAt(d, dirs, name), dirs[..k]).value;
      after.name == before.name && after.files == before.files &&
      after.subDirs.Keys == before.subDirs.Keys + {dirs[k]}
    ensures Walk(d, dirs[..k]).None? ==>
      var after := Walk(InsertFileAt(d, dirs, name), dirs[..k]).value;
      && 0 < k
      && after.name == dirs[k - 1] && after.files == {} && after.subDirs.Keys == {dirs[k]}
    decreases |dirs|
  {
    var child := if dirs[0] in d.subDirs then d.subDirs[dirs[0]] else EmptyDir(dirs[0]);
    if k > 0 {
      assert dirs[..k] == [dirs[0]] + dirs[1..][..k - 1];
      InsertFileAtPrefixes(child, dirs[1..], name, k - 1);
      if dirs[0] in d.subDirs {
        assert Walk(d, dirs[..k]) == Walk(child, dirs[1..][..k - 1]);
      } else if k > 1 {
        assert Walk(child, dirs[1..][..k - 1]).None?;
        assert dirs[1..][k - 2] == dirs[k - 1];
      }
    } else {
      assert dirs[..k] == [];
    }
  }

  /** Only the walks to the target and its ancestors can change. */
  lemma {:induction false} InsertFileAtFrame(d: Dir, dirs: Path, name: string, q: Path)
    requires !IsPrefix(q, dirs)
    ensures Walk(InsertFileAt(d, dirs, name), q) == Walk(d, q)
    decreases |dirs|
  {
    assert q != [];
    if dirs != [] && q[0] == dirs[0] {
      var child := if dirs[0] in d.subDirs then d.subDirs[dirs[0]] else EmptyDir(dirs[0]);
      PrefixTail(q, dirs);
      InsertFileAtFrame(child, dirs[1..], name, q[1..]);
    }
  }

  /** Descending and adding the same name twice is the same as once. */
  lemma {:induction false} InsertFileAtIdempotent(d: Dir, dirs: Path, name: string)
    ensures InsertFileAt(InsertFileAt(d, dirs, name), dirs, name) == InsertFileAt(d, dirs, name)
    decreases |dirs|
  {
    if dirs != [] {
      var child := if dirs[0] in d.subDirs then d.subDirs[dirs[0]] else EmptyDir(dirs[0]);
      var once := InsertFileAt(d, dirs, name);
      InsertFileAtIdempotent(child, dirs[1..], name);
      assert once.subDirs[dirs[0] := InsertFileAt(once.subDirs[dirs[0]], dirs[1..], name)] == once.subDirs;
    }
  }

  /** Tree part of inserting one file path (NamingServer.java:457-501): a
      no-op when the final name is already among the ROOT node's files;
      otherwise the descent above along the parent components. */
  function InsertFile(root: Dir, p: Path): Dir
    requires |p| > 0
  {
    if FileName(p) in root.files then root
    else InsertFileAt(root, Parent(p), FileName(p))
  }

  /** What inserting a file does to the tree, in terms of walks. */
  lemma InsertFileEffect(root: Dir, p: Path)
    requires |p| > 0
    ensures FileName(p) in root.files ==> InsertFile(root, p) == root
    ensures FileName(p) !in root.files ==>
      && Walk(InsertFile(root, p), Parent(p)).Some?
      && FileName(p) in Walk(InsertFile(root, p), Parent(p)).value.files
      && (Walk(root, Parent(p)).Some? ==>
            Walk(InsertFile(root, p), Parent(p)).value ==
            Walk(root, Parent(p)).value.(files := Walk(root, Parent(p)).value.files + {FileName(p)}))
      && (Walk(root, Parent(p)).None? ==>
            Walk(InsertFile(root, p), Parent(p)).value.subDirs == map[])
    ensures forall q :: !IsPrefix(q, Parent(p)) ==> Walk(InsertFile(root, p), q) == Walk(root, q)
  {
    if FileName(p) !in root.files {
      InsertFileAtTarget(root, Parent(p), FileName(p));
      forall q | !IsPrefix(q, Parent(p))
        ensures Walk(InsertFile(root, p), q) == Walk(root, q)
      {
        InsertFileAtFrame(root, Parent(p), FileName(p), q);
      }
    }
  }

  /** Inserting a file keeps every directory and file name of the root
      node, and creates the directory of the first component when the
      descent has to pass through it. */
  lemma InsertFileTopLevel(root: Dir, p: Path)
    requires |p| > 0
    ensures root.subDirs.Keys <= InsertFile(root, p).subDirs.Keys
    ensures root.files <= InsertFile(root, p).files
    ensures |p| >= 2 && FileName(p) !in root.files ==> p[0] in InsertFile(root, p).subDirs
  {
    if FileName(p) !in root.files && |p| >= 2 {
      InsertFileAtPrefixes(root, Parent(p), FileName(p), 0);
      assert Parent(p)[..0] == [];
    }
  }

  /** Whether the tree records the file `q` the way the insertion loop
      leaves it: its name is among the root node's files (where the loop's
      guard at NamingServer.java:457 stops), or its parent resolves and
      lists the name among its files. */
  predicate HasFile(t: Dir, q: Path) {
    && |q| > 0
    && (|| FileName(q) in t.files
        || (Walk(t, Parent(q)).Some? && FileName(q) in Walk(t, Parent(q)).value.files))
  }

  /** An inserted file is recorded afterwards. */
  lemma InsertFileHas(t: Dir, p: Path)
    requires |p| > 0
    ensures HasFile(InsertFile(t, p), p)
  {
    InsertFileEffect(t, p);
  }

  /** Inserting a file keeps every file already recorded. */
  lemma InsertFileKeeps(t: Dir, p: Path, q: Path)
    requires |p| > 0 && HasFile(t, q)
    ensures HasFile(InsertFile(t, p), q)
  {
    InsertFileTopLevel(t, p);
    InsertFileEffect(t, p);
    if FileName(q) !in t.files && FileName(p) !in t.files && IsPrefix(Parent(q), Parent(p)) {
      if |Parent(q)| < |Parent(p)| {
        InsertFileAtPrefixes(t, Parent(p), FileName(p), |Parent(q)|);
      } else {
        assert Parent(q) == Parent(p);
      }
    }
  }

  /** Inserting the same file path twice leaves the same tree as once. */
  lemma InsertFileIdempotent(root: Dir, p: Path)
    requires |p| > 0
    ensures InsertFile(InsertFile(root, p), p) == InsertFile(root, p)
  {
    if FileName(p) !in root.files {
      InsertFileAtIdempotent(root, Parent(p), FileName(p));
      if Parent(p) != [] {
        assert InsertFile(root, p).files == root.files;
      }
    }
  }

  // ---------------------------------------------------------------------
  // Directory insertion (addDirectoriesToDirectoryTree, tree part)
  // ---------------------------------------------------------------------

  /** Tree part of inserting one directory path as NamingServer.java:535-552
      writes it. Skipped when the final name is already a subdirectory of
      the ROOT node. Otherwise the parent components are followed without
      creating anything (a missing one is a dereferenced null), and the
      final name is put both into the parent's FILES and, as a fresh empty
      node replacing any existing one, into its subdirectories. */
  function InsertDirectoryAsWritten(root: Dir, p: Path): (r: Result<Dir>)
    ensures |p| == 0 ==> r == Failure(NullPointer)
    ensures |p| > 0 && FileName(p) in root.subDirs ==> r == Success(root)
    ensures |p| > 0 && FileName(p) !in root.subDirs ==>
      (r.Failure? <==> Walk(root, Parent(p)).None?)
    ensures |p| > 0 && FileName(p) !in root.subDirs && r.Success? ==>
      && Walk(root, Parent(p)).Some?
      && var parent := Walk(root, Parent(p)).value;
      && Walk(r.value, p) == Some(EmptyDir(FileName(p)))
      && Walk(r.value, Parent(p)) ==
           Some(parent.(files := parent.files + {FileName(p)},
                        subDirs := parent.subDirs[FileName(p) := EmptyDir(FileName(p))]))
      && ChangedOnlyAlong(root, r.value, Parent(p))
      && (forall q :: !IsPrefix(q, Parent(p)) && !IsPrefix(Parent(p), q) ==> Walk(r.value, q) == Walk(root, q))
  {
    if |p| == 0 then Failure(NullPointer)
    else if FileName(p) in root.subDirs then Success(root)
    else match Walk(root, Parent(p))
      case None => Failure(NullPointer)
      case Some(parent) =>
        var name := FileName(p);
        var r := ReplaceAt(root, Parent(p), parent.(files := parent.files + {name},
                                                    subDirs := parent.subDirs[name := EmptyDir(name)]));
        WalkSnoc(r, Parent(p), name);
        ChangedOnlyAlongFrame(root, r, Parent(p));
        Success(r)
  }

  /** Directory insertion as evidently intended: the same walk and guard,
      but the name is registered as a subdirectory only, so that a name
      never denotes both a file and a directory of the same node. */
  function InsertDirectory(root: Dir, p: Path): (r: Result<Dir>)
    ensures |p| == 0 ==> r == Failure(NullPointer)
    ensures |p| > 0 && FileName(p) in root.subDirs ==> r == Success(root)
    ensures |p| > 0 && FileName(p) !in root.subDirs ==>
      (r.Failure? <==> Walk(root, Parent(p)).None?)
    ensures |p| > 0 && FileName(p) !in root.subDirs && r.Success? ==>
      && Walk(root, Parent(p)).Some?
      && var parent := Walk(root, Parent(p)).value;
      && Walk(r.value, p) == Some(EmptyDir(FileName(p)))
      && Walk(r.value, Parent(p)) == Some(parent.(subDirs := parent.subDirs[FileName(p) := EmptyDir(FileName(p))]))
      && ChangedOnlyAlong(root, r.value, Parent(p))
      && (forall q :: !IsPrefix(q, Parent(p)) && !IsPrefix(Parent(p), q) ==> Walk(r.value, q) == Walk(root, q))
  {
    if |p| == 0 then Failure(NullPointer)
    else if FileName(p) in root.subDirs then Success(root)
    else match Walk(root, Parent(p))
      case None => Failure(NullPointer)
      case Some(parent) =>
        var name := FileName(p);
        var r := ReplaceAt(root, Parent(p), parent.(subDirs := parent.subDirs[name := EmptyDir(name)]));
        WalkSnoc(r, Parent(p), name);
        ChangedOnlyAlongFrame(root, r, Parent(p));
        Success(r)
  }

  // ---------------------------------------------------------------------
  // Queries
  // ---------------------------------------------------------------------

  /** `isDirectory` (NamingServer.java:206-237), without its lock call. */
  method IsDirectory(root: Dir, p: Path) returns (r: Result<bool>)
    ensures |p| == 0 ==> r == Failure(IllegalArgument)
    ensures |p| > 0 && p[0] != root.name ==> r == Failure(NotFound)
    ensures |p| == 1 && p[0] == root.name ==> r == Success(true)
    ensures |p| > 1 && p[0] == root.name ==>
      && (r == Success(true) <==> Walk(root, p).Some?)
      && (r == Success(false) <==> Walk(root, Parent(p)).Some? && Walk(root, p).None?)
      && (r == Failure(NotFound) <==> Walk(root, Parent(p)).None?)
  {
    if |p| == 0 {
      return Failure(IllegalArgument);  // getName(0) of a path with no names
    }
    if p[0] != root.name {
      return Failure(NotFound);
    }
    if |p| == 1 {
      return Success(true);
    }
    var currentDirs := root.subDirs;
    var i := 0;
    while i < |p|
      invariant 0 <= i <= |p|
      invariant Walk(root, p[..i]).Some? && Walk(root, p[..i]).value.subDirs == currentDirs
    {
      WalkSnoc(root, p[..i], p[i]);
      assert p[..i + 1] == p[..i] + [p[i]];
      if p[i] !in currentDirs {
        if i == |p| - 1 {
          assert p[..i + 1] == p && p[..i] == Parent(p);
          return Success(false);
        } else {
          WalkNonePrefix(root, p[..i + 1], Parent(p));
          WalkNonePrefix(root, p[..i + 1], p);
          return Failure(NotFound);
        }
      }
      currentDirs := currentDirs[p[i]].subDirs;
      i := i + 1;
    }
    assert p[..i] == p;
    WalkSnoc(root, Parent(p), FileName(p));
    return Success(true);
  }

  /** `list` (NamingServer.java:239-274), without its lock calls. Besides
      answering, it adds the subdirectory names to the target's live file
      set, so the returned state carries that mutation. */
  method List(root: Dir, p: Path) returns (r: Exec<Dir, set<string>>)
    ensures |p| == 0 ==> r == Exec(root, Failure(IllegalArgument))
    ensures |p| > 0 && (p[0] != root.name || Walk(root, p).None?) ==> r == Exec(root, Failure(NotFound))
    ensures |p| > 0 && p[0] == root.name && Walk(root, p).Some? ==>
      var target := Walk(root, p).value;
      && r.result == Success(target.files + target.subDirs.Keys)
      && Walk(r.state, p) == Some(target.(files := target.files + target.subDirs.Keys))
      && ChangedOnlyAlong(root, r.state, p)
      && (forall q :: !IsPrefix(q, p) && !IsPrefix(p, q) ==> Walk(r.state, q) == Walk(root, q))
  {
    if |p| == 0 {
      return Exec(root, Failure(IllegalArgument));
    }
    if p[0] != root.name {
      return Exec(root, Failure(NotFound));
    }
    var files: set<string> := {};
    if |p| == 1 {
      files := root.files;  // overwritten by the loop below, as in the source
    }
    var currentDirs := root.subDirs;
    var i := 0;
    while i < |p|
      invariant 0 <= i <= |p|
      invariant Walk(root, p[..i]).Some? && Walk(root, p[..i]).value.subDirs == currentDirs
      invariant i == |p| ==> files == Walk(root, p[..i]).value.files
    {
      WalkSnoc(root, p[..i], p[i]);
      assert p[..i + 1] == p[..i] + [p[i]];
      if p[i] !in currentDirs {
        WalkNonePrefix(root, p[..i + 1], p);
        return Exec(root, Failure(NotFound));
      }
      if i == |p| - 1 {
        files := currentDirs[p[i]].files;
      }
      currentDirs := currentDirs[p[i]].subDirs;
      i := i + 1;
    }
    assert p[..i] == p;
    var target := Walk(root, p).value;
    files := files + currentDirs.Keys;
    var tree := ReplaceAt(root, p, target.(files := files));
    forall q | !IsPrefix(q, p) && !IsPrefix(p, q)
      ensures Walk(tree, q) == Walk(root, q)
    {
      ReplaceAtFrame(root, p, target.(files := files), q);
    }
    return Exec(tree, Success(files));
  }

  /** `getParentDir` (NamingServer.java:577-590). It follows all but the
      last two components (a missing one is a dereferenced null) and then
      looks the second-to-last one up, which yields `null` when absent;
      paths of fewer than two components also give `null`. */
  function GetParentDir(root: Dir, p: Path): (r: Result<Option<Dir>>)
    ensures (r.Success? && r.value.Some?) <==> |p| >= 2 && Walk(root, Parent(p)).Some?
    ensures r.Success? && r.value.Some? ==> r.value.value == Walk(root, Parent(p)).value
    ensures r.Failure? <==>
      (|p| == 1 && p[0] !in root.subDirs) || (|p| >= 2 && Walk(root, p[..|p| - 2]).None?)
  {
    if |p| == 0 then Success(None)
    else if |p| == 1 then
      if p[0] in root.subDirs then Success(None) else Failure(NullPointer)
    else
      var grand := p[..|p| - 2];
      var last := p[|p| - 2];
      assert Parent(p) == grand + [last];
      WalkSnoc(root, grand, last);
      match Walk(root, grand)
      case None => Failure(NullPointer)
      case Some(g) => Success(if last in g.subDirs then Some(g.subDirs[last]) else None)
  }

  /** `getDirFromPath` (NamingServer.java:592-605): the node named by the
      whole path, `null` when only its last step is missing or the path is
      empty, a dereferenced null when an earlier step is missing. */
  function GetDirFromPath(root: Dir, p: Path): (r: Result<Option<Dir>>)
    ensures (r.Success? && r.value.Some?) <==> |p| >= 1 && Walk(root, p).Some?
    ensures r.Success? && r.value.Some? ==> r.value.value == Walk(root, p).value
    ensures r.Failure? <==> |p| >= 1 && Walk(root, Parent(p)).None?
  {
    if |p| == 0 then Success(None)
    else
      WalkSnoc(root, Parent(p), FileName(p));
      match Walk(root, Parent(p))
      case None => Failure(NullPointer)
      case Some(g) => Success(if FileName(p) in g.subDirs then Some(g.subDirs[FileName(p)]) else None)
  }

  /** Tree half of `delete` (NamingServer.java:373-391): find the parent,
      remove the final name from its files if it is there, otherwise from
      its subdirectories. A missing parent is a dereferenced null. */
  function RemoveEntry(root: Dir, p: Path): (r: Result<Dir>)
    ensures r.Success? <==> |p| >= 2 && Walk(root, Parent(p)).Some?
    ensures r.Success? ==> Walk(r.value, Parent(p)).Some?
    ensures r.Success? ==>
      var before := Walk(root, Parent(p)).value;
      var after := Walk(r.value, Parent(p)).value;
      && after.name == before.name
      && (FileName(p) in before.files ==>
            after.files == before.files - {FileName(p)} && after.subDirs == before.subDirs)
      && (FileName(p) !in before.files ==>
            after.files == before.files && after.subDirs == before.subDirs - {FileName(p)})
    ensures r.Success? ==> ChangedOnlyAlong(root, r.value, Parent(p))
  {
    match GetParentDir(root, p)
    case Failure(e) => Failure(e)
    case Success(None) => Failure(NullPointer)
    case Success(Some(parent)) =>
      var name := FileName(p);
      var updated :=
        if name in parent.files then parent.(files := parent.files - {name})
        else if name in parent.subDirs then parent.(subDirs := parent.subDirs - {name})
        else parent;
      Success(ReplaceAt(root, Parent(p), updated))
  }

  /** Removing an entry changes nothing outside the parent's own entries:
      walks that avoid the removed path and do not end above it are kept. */
  lemma RemoveEntryFrame(root: Dir, p: Path, q: Path)
    requires RemoveEntry(root, p).Success?
    requires !IsPrefix(q, Parent(p)) && !IsPrefix(p, q)
    ensures Walk(RemoveEntry(root, p).value, q) == Walk(root, q)
  {
    var parent := Walk(root, Parent(p)).value;
    var name := FileName(p);
    var updated :=
      if name in parent.files then parent.(files := parent.files - {name})
      else if name in parent.subDirs then parent.(subDirs := parent.subDirs - {name})
      else parent;
    if IsPrefix(Parent(p), q) {
      ReplaceAtBelow(root, Parent(p), updated, q);
      ReplaceAtBelow(root, Parent(p), parent, q);
      assert ReplaceAt(root, Parent(p), parent) == root by {
        ReplaceAtSame(root, Parent(p));
      }
      var rest := q[|Parent(p)|..];
      assert |q| > |Parent(p)|;
      assert q[..|p|] == Parent(p) + [q[|p| - 1]];
      assert rest[0] == q[|p| - 1] != name;
    } else {
      ReplaceAtFrame(root, Parent(p), updated, q);
    }
  }

  /** As written, a directory that is inserted and then removed still
      resolves: insertion put its name among the parent's files as well as
      its subdirectories, and removal takes only the file entry. */
  lemma DirectorySurvivesRemovalAsWritten(root: Dir, p: Path)
    requires |p| >= 2 && FileName(p) !in root.subDirs && Walk(root, Parent(p)).Some?
    ensures InsertDirectoryAsWritten(root, p).Success?
    ensures RemoveEntry(InsertDirectoryAsWritten(root, p).value, p).Success?
    ensures Walk(RemoveEntry(InsertDirectoryAsWritten(root, p).value, p).value, p) == Some(EmptyDir(FileName(p)))
  {
    var t1 := InsertDirectoryAsWritten(root, p).value;
    var t2 := RemoveEntry(t1, p).value;
    WalkSnoc(t1, Parent(p), FileName(p));
    WalkSnoc(t2, Parent(p), FileName(p));
    assert Parent(p) + [FileName(p)] == p;
  }

  /** With the intended insertion, removing the directory just inserted
      takes it out of the tree and leaves the parent's files as they were. */
  lemma DirectoryRemovedAfterInsert(root: Dir, p: Path)
    requires |p| >= 2 && FileName(p) !in root.subDirs && Walk(root, Parent(p)).Some?
    requires FileName(p) !in Walk(root, Parent(p)).value.files
    ensures InsertDirectory(root, p).Success?
    ensures RemoveEntry(InsertDirectory(root, p).value, p).Success?
    ensures var t := RemoveEntry(InsertDirectory(root, p).value, p).value;
      && Walk(t, p).None?
      && Walk(t, Parent(p)).Some?
      && Walk(t, Parent(p)).value.files == Walk(root, Parent(p)).value.files
  {
    var t1 := InsertDirectory(root, p).value;
    var t2 := RemoveEntry(t1, p).value;
    WalkSnoc(t1, Parent(p), FileName(p));
    WalkSnoc(t2, Parent(p), FileName(p));
    assert Parent(p) + [FileName(p)] == p;
  }

  /** Putting back the node that is already there changes nothing. */
  lemma {:induction false} ReplaceAtSame(d: Dir, comps: Path)
    requires Walk(d, comps).Some?
    ensures ReplaceAt(d, comps, Walk(d, comps).value) == d
    decreases |comps|
  {
    if comps != [] {
      ReplaceAtSame(d.subDirs[comps[0]], comps[1..]);
      assert d.subDirs[comps[0] := d.subDirs[comps[0]]] == d.subDirs;
    }
  }
}

=== FILE: file_access.dfy ===
/** `FileAccess` (naming/FileAccess.java): a path paired with its access
    count, ordered by the count alone. */
module FileAccess {
  import opened Paths

  datatype FileAccess = FileAccess(path: Path, accessCount: int)

  /** `compareTo`: 1, -1 or 0 as this count is greater than, less than or
      equal to the other's. */
  function CompareTo(a: FileAccess, b: FileAccess): (r: int)
    ensures r == 1 <==> a.accessCount > b.accessCount
    ensures r == -1 <==> a.accessCount < b.accessCount
    ensures r == 0 <==> a.accessCount == b.accessCount
  {
    if a.accessCount > b.accessCount then 1
    else if a.accessCount < b.accessCount then -1
    else 0
  }

  /** The order `compareTo` induces: `a` comes no later than `b`. */
  predicate NoLater(a: FileAccess, b: FileAccess) {
    CompareTo(a, b) <= 0
  }

  /** Swapping the arguments negates the answer. */
  lemma Antisymmetric(a: FileAccess, b: FileAccess)
    ensures CompareTo(a, b) == -CompareTo(b, a)
  {
  }

  /** Every element compares equal to itself. */
  lemma Reflexive(a: FileAccess)
    ensures CompareTo(a, a) == 0
  {
  }

  /** The induced order is transitive, for both the strict and the non-strict
      reading, and total. */
  lemma Transitive(a: FileAccess, b: FileAccess, c: FileAccess)
    ensures NoLater(a, b) && NoLater(b, c) ==> NoLater(a, c)
    ensures CompareTo(a, b) < 0 && CompareTo(b, c) < 0 ==> CompareTo(a, c) < 0
    ensures NoLater(a, b) || NoLater(b, a)
  {
  }

  /** The path plays no part: equal counts compare 0 whatever the paths,
      and replacing either path leaves every answer unchanged. */
  lemma PathIrrelevant(a: FileAccess, b: FileAccess, p: Path, q: Path)
    ensures a.accessCount == b.accessCount ==> CompareTo(a, b) == 0
    ensures CompareTo(a.(path := p), b.(path := q)) == CompareTo(a, b)
  {
  }
}

=== FILE: lock_scheduler.dfy ===
/** The hierarchical lock state of the naming server: the grant step of
    LockScheduler.run, NamingServer.unlock, and the FIFO wait queue.

    The scheduler thread's spin-waits are not loops here. A request whose
    wait would spin is simply not enabled yet: `Grant` answers `None`, and
    the scheduling step leaves it at the head of the queue. */
module LockScheduler {
  import opened Outcomes
  import opened Paths

  const MinInt32: int := -0x8000_0000
  const MaxInt32: int := 0x7fff_ffff

  /** The values of a Java `Integer`. */
  type Int32 = x: int | MinInt32 <= x <= MaxInt32

  /** Java's `int` increment, wrapping from the largest value to the least. */
  function Inc32(x: Int32): (r: Int32)
    ensures x < MaxInt32 ==> r == x + 1
    ensures x == MaxInt32 ==> r == MinInt32
    ensures (r - x - 1) % 0x1_0000_0000 == 0
  {
    if x == MaxInt32 then MinInt32 else x + 1
  }

  /** A pending `lock(path, exclusive)` call, as queued by NamingServer.java:168-177. */
  datatype Request = Request(path: Path, exclusive: bool)

  /** `exclusiveLockList`, `sharedLockList`, `accessCount`, and the paths
      handed to `replicateFile`, oldest first. */
  datatype LockState = LockState(
    exclusive: set<Path>,
    shared: set<Path>,
    accessCount: map<Path, Int32>,
    hotPaths: seq<Path>)

  /** Every 20th shared grant of a path asks for its replication. */
  const ReplicationPeriod: nat := 20

  // ---------------------------------------------------------------------
  // Grant step (LockScheduler.java:43-73)
  // ---------------------------------------------------------------------

  /** The ancestor loop (LockScheduler.java:46-51): for each ancestor in
      order, wait while it is in the shared set, then add it. `None` when
      some ancestor would make the scheduler wait. */
  function AcquireIntentions(shared: set<Path>, parents: seq<Path>): (r: Option<set<Path>>)
    ensures r.Some? ==> r.value == shared + Elems(parents)
    decreases |parents|
  {
    if parents == [] then Some(shared)
    else if parents[0] in shared then None
    else
      var r := AcquireIntentions(shared + {parents[0]}, parents[1..]);
      assert parents == [parents[0]] + parents[1..];
      assert Elems(parents) == {parents[0]} + Elems(parents[1..]);
      r
  }

  /** Over distinct ancestors, the loop goes through exactly when none of
      them is in the shared set to begin with. (Were an ancestor listed
      twice, its second wait would be on itself and never end.) */
  lemma {:induction false} AcquireIntentionsEnabled(shared: set<Path>, parents: seq<Path>)
    requires Distinct(parents)
    ensures AcquireIntentions(shared, parents).Some? <==> Elems(parents) !! shared
    decreases |parents|
  {
    if parents != [] {
      assert forall i :: 0 <= i < |parents[1..]| ==> parents[1..][i] == parents[i + 1];
      assert parents[0] !in parents[1..];
      AcquireIntentionsEnabled(shared + {parents[0]}, parents[1..]);
      assert parents == [parents[0]] + parents[1..];
      assert Elems(parents) == {parents[0]} + Elems(parents[1..]);
    }
  }

  /** The access counter update of a shared grant (LockScheduler.java:64-72):
      a first access records 1; a later one increments, and the result says
      whether `replicateFile` is called. */
  function CountAccess(counts: map<Path, Int32>, p: Path): (r: (map<Path, Int32>, bool))
    ensures r.0.Keys == counts.Keys + {p}
    ensures forall q :: q in counts && q != p ==> r.0[q] == counts[q]
    ensures p !in counts ==> r.0[p] == 1 && !r.1
    ensures p in counts ==> r.0[p] == Inc32(counts[p]) && (r.1 <==> r.0[p] % ReplicationPeriod == 0)
  {
    if p in counts then
      var newCount := Inc32(counts[p]);
      // Java's % truncates toward zero and Dafny's is Euclidean; they agree
      // on whether the remainder is zero, which is all the source asks.
      (counts[p := newCount], newCount % ReplicationPeriod == 0)
    else
      (counts[p := 1], false)
  }

  /** The grant step for the request taken from the head of the queue, or
      `None` when one of its waits would spin. */
  function Grant(ls: LockState, req: Request): Option<LockState>
  {
    match AcquireIntentions(ls.shared, ParentPathList(req.path))
    case None => None
    case Some(shared1) =>
      if req.exclusive then
        if req.path in ls.exclusive then None
        else Some(ls.(shared := shared1, exclusive := ls.exclusive + {req.path}))
      else if req.path in shared1 then None
      else
        var (counts, replicate) := CountAccess(ls.accessCount, req.path);
        Some(LockState(ls.exclusive, shared1 + {req.path}, counts,
                       if replicate then ls.hotPaths + [req.path] else ls.hotPaths))
  }

  /** When a grant can proceed: no ancestor of the target is in the shared
      set, and the target is not in the set of its own mode. An exclusive
      grant never looks at the shared set. */
  lemma GrantEnabled(ls: LockState, req: Request)
    ensures Grant(ls, req).Some? <==>
      && Elems(ParentPathList(req.path)) !! ls.shared
      && (req.exclusive ==> req.path !in ls.exclusive)
      && (!req.exclusive ==> req.path !in ls.shared)
  {
    AcquireIntentionsEnabled(ls.shared, ParentPathList(req.path));
  }

  /** What a grant records: every ancestor joins the shared set, the target
      joins the set of its mode, and nothing else joins either set. */
  lemma GrantEffect(ls: LockState, req: Request)
    requires Grant(ls, req).Some?
    ensures var ls' := Grant(ls, req).value;
      && ls'.shared == ls.shared + Elems(ParentPathList(req.path)) + (if req.exclusive then {} else {req.path})
      && ls'.exclusive == ls.exclusive + (if req.exclusive then {req.path} else {})
      && ls.shared !! Elems(ParentPathList(req.path))
  {
    AcquireIntentionsEnabled(ls.shared, ParentPathList(req.path));
  }

  /** The access counters: an exclusive grant leaves them all alone; a
      shared grant sets its path to 1 on first access and otherwise adds
      exactly one (wrapping only past the largest Integer); other paths keep
      their counts. */
  lemma GrantCounts(ls: LockState, req: Request)
    requires Grant(ls, req).Some?
    ensures var ls' := Grant(ls, req).value;
      && (req.exclusive ==> ls'.accessCount == ls.accessCount && ls'.hotPaths == ls.hotPaths)
      && (!req.exclusive ==>
            && ls'.accessCount.Keys == ls.accessCount.Keys + {req.path}
            && (req.path !in ls.accessCount ==> ls'.accessCount[req.path] == 1)
            && (req.path in ls.accessCount && ls.accessCount[req.path] < MaxInt32 ==>
                  ls'.accessCount[req.path] == ls.accessCount[req.path] + 1)
            && (forall q :: q in ls.accessCount && q != req.path ==> ls'.accessCount[q] == ls.accessCount[q]))
  {
  }

  /** `replicateFile` is asked for exactly when a shared grant brings an
      existing counter to a multiple of 20: at most once per grant, never on
      a first access, never on an exclusive grant. */
  lemma GrantReplication(ls: LockState, req: Request)
    requires Grant(ls, req).Some?
    ensures var ls' := Grant(ls, req).value;
      var fires := !req.exclusive && req.path in ls.accessCount &&
                   Inc32(ls.accessCount[req.path]) % ReplicationPeriod == 0;
      && (fires ==> ls'.hotPaths == ls.hotPaths + [req.path])
      && (!fires ==> ls'.hotPaths == ls.hotPaths)
  {
  }

  // ---------------------------------------------------------------------
  // unlock (NamingServer.java:179-203)
  // ---------------------------------------------------------------------

  /** The ancestor loop of `unlock`: remove each ancestor in order from the
      shared set, stopping (with `false`, for the exception) at the first one
      that is not there. */
  function ReleaseIntentions(shared: set<Path>, parents: seq<Path>): (r: (set<Path>, bool))
    ensures r.0 <= shared
    ensures r.1 ==> r.0 == shared - Elems(parents)
    decreases |parents|
  {
    if parents == [] then (shared, true)
    else if parents[0] !in shared then (shared, false)
    else
      var r := ReleaseIntentions(shared - {parents[0]}, parents[1..]);
      assert parents == [parents[0]] + parents[1..];
      assert Elems(parents) == {parents[0]} + Elems(parents[1..]);
      r
  }

  /** Over distinct ancestors the loop completes exactly when every one of
      them is in the shared set. */
  lemma {:induction false} ReleaseIntentionsComplete(shared: set<Path>, parents: seq<Path>)
    requires Distinct(parents)
    ensures ReleaseIntentions(shared, parents).1 <==> Elems(parents) <= shared
    decreases |parents|
  {
    if parents != [] {
      assert forall i :: 0 <= i < |parents[1..]| ==> parents[1..][i] == parents[i + 1];
      assert parents[0] !in parents[1..];
      ReleaseIntentionsComplete(shared - {parents[0]}, parents[1..]);
      assert parents == [parents[0]] + parents[1..];
      assert Elems(parents) == {parents[0]} + Elems(parents[1..]);
    }
  }

  /** Index of the first ancestor missing from `shared`, or the number of
      ancestors when all of them are there. */
  function FirstMissing(shared: set<Path>, parents: seq<Path>): (k: nat)
    ensures k <= |parents|
    ensures forall j :: 0 <= j < k ==> parents[j] in shared
    ensures k < |parents| ==> parents[k] !in shared
    decreases |parents|
  {
    if parents == [] || parents[0] !in shared then 0 else 1 + FirstMissing(shared, parents[1..])
  }

  /** Removing a path that is not among the ancestors does not move the
      first missing one. */
  lemma {:induction false} FirstMissingIgnores(shared: set<Path>, parents: seq<Path>, x: Path)
    requires x !in parents
    ensures FirstMissing(shared - {x}, parents) == FirstMissing(shared, parents)
    decreases |parents|
  {
    if parents != [] && parents[0] in shared {
      assert x != parents[0];
      assert x !in parents[1..] by {
        assert forall y :: y in parents[1..] ==> y in parents;
      }
      FirstMissingIgnores(shared, parents[1..], x);
    }
  }

  /** Over distinct ancestors, the release loop removes exactly the
      ancestors before the first missing one, and completes exactly when
      none is missing. */
  lemma {:induction false} ReleaseIntentionsStops(shared: set<Path>, parents: seq<Path>)
    requires Distinct(parents)
    ensures ReleaseIntentions(shared, parents).0 == shared - Elems(parents[..FirstMissing(shared, parents)])
    ensures ReleaseIntentions(shared, parents).1 <==> FirstMissing(shared, parents) == |parents|
    decreases |parents|
  {
    if parents == [] {
      assert parents[..0] == [];
    } else if parents[0] !in shared {
      assert parents[..0] == [];
    } else {
      var rest := parents[1..];
      DistinctTail(parents);
      FirstMissingIgnores(shared, rest, parents[0]);
      ReleaseIntentionsStops(shared - {parents[0]}, rest);
      var k := FirstMissing(shared, rest);
      assert parents[..k + 1] == [parents[0]] + rest[..k];
      assert Elems(parents[..k + 1]) == {parents[0]} + Elems(rest[..k]);
    }
  }

  /** `unlock(path, exclusive)`. Throws with nothing changed when the target
      is not in the set of its mode; otherwise removes it, then releases the
      ancestors and throws, with the target already removed, at the first
      ancestor missing from the shared set. Counters and the replication
      queue are never touched. */
  function Unlock(ls: LockState, p: Path, exclusive: bool): (r: Exec<LockState, ()>)
    ensures r.state.accessCount == ls.accessCount && r.state.hotPaths == ls.hotPaths
    ensures (if exclusive then p !in ls.exclusive else p !in ls.shared) ==>
      r == Exec(ls, Failure(IllegalArgument))
    ensures (if exclusive then p in ls.exclusive else p in ls.shared) ==>
      && r.state.exclusive == (if exclusive then ls.exclusive - {p} else ls.exclusive)
      && (r.result.Success? <==> Elems(ParentPathList(p)) <= (if exclusive then ls.shared else ls.shared - {p}))
      && (r.result.Success? ==>
            r.state.shared == ls.shared - Elems(ParentPathList(p)) - (if exclusive then {} else {p}))
      && (r.result.Failure? ==> r.result.error == IllegalArgument)
    ensures (if exclusive then p in ls.exclusive else p in ls.shared) ==>
      var base := if exclusive then ls.shared else ls.shared - {p};
      r.state.shared == base - Elems(ParentPathList(p)[..FirstMissing(base, ParentPathList(p))])
  {
    var parents := ParentPathList(p);
    ReleaseIntentionsComplete(if exclusive then ls.shared else ls.shared - {p}, parents);
    ReleaseIntentionsStops(if exclusive then ls.shared else ls.shared - {p}, parents);
    if exclusive then
      if p !in ls.exclusive then Exec(ls, Failure(IllegalArgument))
      else
        var (shared, ok) := ReleaseIntentions(ls.shared, parents);
        Exec(ls.(exclusive := ls.exclusive - {p}, shared := shared),
             if ok then Success(()) else Failure(IllegalArgument))
    else
      if p !in ls.shared then Exec(ls, Failure(IllegalArgument))
      else
        var (shared, ok) := ReleaseIntentions(ls.shared - {p}, parents);
        Exec(ls.(shared := shared), if ok then Success(()) else Failure(IllegalArgument))
  }

  /** A grant followed by the matching `unlock` succeeds and gives back both
      lock sets exactly as they were; only the counters and the replication
      queue keep what the grant did to them. */
  lemma GrantUnlockRoundTrip(ls: LockState, req: Request)
    requires Grant(ls, req).Some?
    ensures var ls1 := Grant(ls, req).value;
      && Unlock(ls1, req.path, req.exclusive).result.Success?
      && Unlock(ls1, req.path, req.exclusive).state ==
           LockState(ls.exclusive, ls.shared, ls1.accessCount, ls1.hotPaths)
  {
    var ls1 := Grant(ls, req).value;
    var parents := ParentPathList(req.path);
    GrantEnabled(ls, req);
    GrantEffect(ls, req);
    assert req.path !in Elems(parents);
    var r := Unlock(ls1, req.path, req.exclusive);
    if req.exclusive {
      assert r.state.shared == ls1.shared - Elems(parents);
    } else {
      assert r.state.shared == ls1.shared - Elems(parents) - {req.path};
    }
  }

  // ---------------------------------------------------------------------
  // The wait queue and the scheduler loop (LockScheduler.java:34-79)
  // ---------------------------------------------------------------------

  /** The wait queue, the lock state, the requests whose waiting caller
      has been signalled (`conditionVariable.signal()`), in signal order,
      and `currentWaitQueueSize`, the queue size the loop last recorded. */
  datatype Scheduler = Scheduler(queue: seq<Request>, locks: LockState, signalled: seq<Request>, seen: nat)

  /** The scheduler as the constructor leaves it over an empty queue. */
  function FreshScheduler(): (s: Scheduler)
    ensures s.queue == [] && s.signalled == [] && s.seen == 0
    ensures s.locks.exclusive == {} && s.locks.shared == {} && s.locks.accessCount == map[] && s.locks.hotPaths == []
  {
    Scheduler([], LockState({}, {}, map[], []), [], 0)
  }

  /** One round of the scheduler loop as evidently intended: grant the head
      (`poll`) and signal its caller, or, when its waits would spin, leave
      everything as it is. No request behind the head is looked at. */
  function Schedule(s: Scheduler): (r: Scheduler)
    ensures s.queue == [] ==> r == s
    ensures r == s || (s.queue != [] && r.queue == s.queue[1..] && r.signalled == s.signalled + [s.queue[0]])
    ensures s.queue != [] ==> (r != s <==> Grant(s.locks, s.queue[0]).Some?)
    ensures r != s ==> r.locks == Grant(s.locks, s.queue[0]).value
    ensures r.seen == s.seen
  {
    if s.queue == [] then s
    else match Grant(s.locks, s.queue[0])
      case None => s
      case Some(ls) => s.(queue := s.queue[1..], locks := ls, signalled := s.signalled + [s.queue[0]])
  }

  /** The round with the loop's queue-size test (LockScheduler.java:36, :77)
      kept: the head is looked at only when the queue is longer than the
      size recorded after the previous completed round. A round still
      spinning on its waits records nothing. */
  function PolledRound(s: Scheduler): (r: Scheduler)
    ensures |s.queue| <= s.seen ==> r == s.(seen := |s.queue|)
    ensures |s.queue| > s.seen ==>
      && r.queue == Schedule(s).queue && r.locks == Schedule(s).locks && r.signalled == Schedule(s).signalled
      && r.seen == (if Schedule(s) == s then s.seen else |r.queue|)
  {
    if |s.queue| <= s.seen then s.(seen := |s.queue|)
    else
      var r := Schedule(s);
      if r == s then s else r.(seen := |r.queue|)
  }

  /** With the queue-size test, two requests that arrive together are not
      both served: the first is granted, the size recorded is then 1, and
      every later round leaves the second waiting until something else
      arrives. The intended round grants both in two rounds. */
  lemma PollingStrandsRequest(ls: LockState, a: Request, b: Request)
    requires Grant(ls, a).Some? && Grant(Grant(ls, a).value, b).Some?
    ensures var s1 := PolledRound(Scheduler([a, b], ls, [], 0));
      && s1.queue == [b] && s1.signalled == [a]
      && PolledRound(s1) == s1
    ensures var s2 := Schedule(Schedule(Scheduler([a, b], ls, [], 0)));
      s2.queue == [] && s2.signalled == [a, b]
  {
    assert [a, b][1..] == [b];
    assert [b][1..] == [];
  }

  /** One round as written. The head is polled only when the queue grew
      (LockScheduler.java:36) and, once its waits are over, the sets and
      the counter are updated. Then `replicateFile` dereferences its
      never-initialised queue (ReplicationHandler.java:9, :24) on a
      replication round, and `conditionVariable.signal()` is called by a
      thread that does not hold the lock the condition belongs to
      (LockScheduler.java:75, NamingServer.java:146-147) on every other
      granting round. Either way `run` ends by an exception: the request
      has left the queue and its caller is never signalled. */
  function ScheduleAsWritten(s: Scheduler): (r: Exec<Scheduler, ()>)
    ensures r.result.Failure? <==> |s.queue| > s.seen && Grant(s.locks, s.queue[0]).Some?
    ensures r.result.Success? ==>
      && r.state.queue == s.queue && r.state.locks == s.locks && r.state.signalled == s.signalled
      && r.state.seen == (if |s.queue| <= s.seen then |s.queue| else s.seen)
    ensures r.result.Failure? ==>
      var ls := Grant(s.locks, s.queue[0]).value;
      && r.state.queue == s.queue[1..] && r.state.signalled == s.signalled
      && r.state.locks == ls.(hotPaths := s.locks.hotPaths)
      && (r.result.error == NullPointer <==> |ls.hotPaths| > |s.locks.hotPaths|)
      && (r.result.error != NullPointer ==> r.result.error == IllegalMonitorState)
  {
    if |s.queue| <= s.seen then Exec(s.(seen := |s.queue|), Success(()))
    else match Grant(s.locks, s.queue[0])
      case None => Exec(s, Success(()))
      case Some(ls) =>
        var polled := s.(queue := s.queue[1..], locks := ls.(hotPaths := s.locks.hotPaths));
        if |ls.hotPaths| > |s.locks.hotPaths| then Exec(polled, Failure(NullPointer))
        else Exec(polled, Failure(IllegalMonitorState))
  }

  /** The 20th shared grant of a path, taken on its own: as written the
      replication hand-off dereferences null before the caller could be
      signalled. */
  lemma TwentiethGrantAsWritten(s: Scheduler, p: Path)
    requires |s.queue| > s.seen && s.queue[0] == Request(p, false)
    requires Grant(s.locks, s.queue[0]).Some?
    requires p in s.locks.accessCount && s.locks.accessCount[p] == 19
    ensures ScheduleAsWritten(s).result == Failure(NullPointer)
    ensures ScheduleAsWritten(s).state.signalled == s.signalled
    ensures ScheduleAsWritten(s).state.queue == s.queue[1..]
  {
    GrantReplication(s.locks, s.queue[0]);
  }

  /** The same round with the intended hand-off: the path is queued for
      replication and the caller is signalled. */
  lemma TwentiethGrant(s: Scheduler, p: Path)
    requires s.queue != [] && s.queue[0] == Request(p, false)
    requires Grant(s.locks, s.queue[0]).Some?
    requires p in s.locks.accessCount && s.locks.accessCount[p] == 19
    ensures Schedule(s).locks.hotPaths == s.locks.hotPaths + [p]
    ensures Schedule(s).signalled == s.signalled + [Request(p, false)]
    ensures Schedule(s).locks.accessCount[p] == 20
  {
    GrantReplication(s.locks, s.queue[0]);
    GrantCounts(s.locks, s.queue[0]);
  }

  /** What can happen to the scheduler: a caller enqueues a request, the
      scheduler runs one round, or a caller unlocks. */
  datatype Event = Arrive(req: Request) | Round | Release(path: Path, exclusive: bool)

  function Apply(s: Scheduler, e: Event): Scheduler {
    match e
    case Arrive(req) => s.(queue := s.queue + [req])
    case Round => Schedule(s)
    case Release(p, x) => s.(locks := Unlock(s.locks, p, x).state)
  }

  function Run(s: Scheduler, events: seq<Event>): Scheduler
    decreases |events|
  {
    if events == [] then s else Run(Apply(s, events[0]), events[1..])
  }

  /** The requests enqueued by `events`, in arrival order. */
  function Arrivals(events: seq<Event>): seq<Request>
    decreases |events|
  {
    if events == [] then []
    else (if events[0].Arrive? then [events[0].req] else []) + Arrivals(events[1..])
  }

  /** Global FIFO: whatever happens, the requests signalled so far followed
      by those still waiting are exactly the requests in arrival order. So
      requests are granted strictly in the order they arrived, and a request
      is never granted before one that arrived earlier. */
  lemma {:induction false} RunIsFifo(s: Scheduler, events: seq<Event>)
    ensures Run(s, events).signalled + Run(s, events).queue == s.signalled + s.queue + Arrivals(events)
    decreases |events|
  {
    if events != [] {
      var s1 := Apply(s, events[0]);
      RunIsFifo(s1, events[1..]);
      match events[0]
      case Arrive(req) =>
        assert s1.signalled + s1.queue == s.signalled + s.queue + [req];
      case Round =>
        if s1 != s {
          assert s.queue == [s.queue[0]] + s.queue[1..];
          assert s1.signalled + s1.queue == s.signalled + s.queue;
        }
      case Release(_, _) =>
    }
  }

  /** A request that did not reach the signalled list during a run is still
      in the queue, behind nothing that arrived later than it. */
  lemma RunSignalsPrefix(s: Scheduler, events: seq<Event>)
    ensures var all := s.signalled + s.queue + Arrivals(events);
      && |Run(s, events).signalled| <= |all|
      && Run(s, events).signalled == all[..|Run(s, events).signalled|]
  {
    RunIsFifo(s, events);
  }

  // ---------------------------------------------------------------------
  // The scheduler thread as written
  // ---------------------------------------------------------------------

  /** The scheduler thread as written: its state, and whether `run` is
      still going. An exception out of a round ends `run` for good. */
  datatype SchedulerThread = SchedulerThread(sched: Scheduler, alive: bool)

  function ApplyAsWritten(t: SchedulerThread, e: Event): SchedulerThread {
    match e
    case Arrive(req) => t.(sched := t.sched.(queue := t.sched.queue + [req]))
    case Round =>
      if !t.alive then t
      else
        var x := ScheduleAsWritten(t.sched);
        SchedulerThread(x.state, x.result.Success?)
    case Release(p, x) => t.(sched := t.sched.(locks := Unlock(t.sched.locks, p, x).state))
  }

  function RunAsWritten(t: SchedulerThread, events: seq<Event>): SchedulerThread
    decreases |events|
  {
    if events == [] then t else RunAsWritten(ApplyAsWritten(t, events[0]), events[1..])
  }

  /** As written, the thread that the server starts (running, nothing
      signalled, no counters yet) never signals a caller, whatever
      happens: its first grant throws and ends it. At most one request ever
      leaves the queue, and no access counter goes past 1, so the 20th
      access that would ask for replication is never reached. */
  lemma {:induction false} RunAsWrittenNeverSignals(t: SchedulerThread, events: seq<Event>)
    requires t.sched.signalled == []
    requires t.alive ==> t.sched.locks.accessCount == map[]
    requires forall q :: q in t.sched.locks.accessCount ==> t.sched.locks.accessCount[q] == 1
    ensures var t' := RunAsWritten(t, events);
      && t'.sched.signalled == []
      && (forall q :: q in t'.sched.locks.accessCount ==> t'.sched.locks.accessCount[q] == 1)
      && |t'.sched.queue| + (if t.alive then 1 else 0) >= |t.sched.queue| + |Arrivals(events)|
    decreases |events|
  {
    if events != [] {
      var t1 := ApplyAsWritten(t, events[0]);
      if events[0].Round? && t.alive && |t.sched.queue| > t.sched.seen && Grant(t.sched.locks, t.sched.queue[0]).Some? {
        GrantCounts(t.sched.locks, t.sched.queue[0]);
      }
      RunAsWrittenNeverSignals(t1, events[1..]);
      assert Arrivals(events) == (if events[0].Arrive? then [events[0].req] else []) + Arrivals(events[1..]);
    }
  }
}

=== FILE: naming_server.dfy ===
/** The naming server's state and the operations of NamingServer.java that
    combine the tree, the storage bookkeeping and the lock queue: the
    existence guard of `lock`, `createFile`, `createDirectory`, `delete`
    and `register`.

    Remote calls to storage servers are inputs: the boolean a remote
    `create` returns, the booleans the successive remote `delete` calls
    return, and the size a new server reports. The `lock`/`unlock` calls
    that bracket each client operation are modelled on their own (see
    LockScheduler), not inside these functions. */
module NamingServer {
  import opened Outcomes
  import opened Paths
  import opened Directory
  import opened DirectoryTree
  import opened StorageRegistry
  import opened LockScheduler

  datatype NamingState = NamingState(
    catalog: Catalog,                 // directoryTree, commandStubsForFile, clientStubsForFile
    serverFiles: set<Path>,           // serverfiles
    servers: seq<ServerRecord>,       // storageServerStubs, in iteration order
    scheduler: Scheduler)             // waitQueue and the lock sets

  /** The freshly constructed server (NamingServer.java:76-89). */
  function Init(): (s: NamingState)
    ensures s.catalog.tree == EmptyDir(RootName)
    ensures s.serverFiles == {} && s.servers == []
    ensures s.catalog.commandStubs == map[] && s.catalog.clientStubs == map[]
    ensures s.scheduler.queue == [] && s.scheduler.locks.exclusive == {} && s.scheduler.locks.shared == {}
    ensures s.scheduler == FreshScheduler()
  {
    NamingState(Catalog(EmptyDir(RootName), map[], map[]), {}, [], FreshScheduler())
  }

  // ---------------------------------------------------------------------
  // Java objects handed to Set<common.Path> methods
  // ---------------------------------------------------------------------

  /** An argument passed to `contains` or `remove` of a `Set<common.Path>`.
      Java's collections compare with `equals`, which holds only between a
      `common.Path` and another `common.Path`; a `String` or a
      `java.nio.file.Path` is never found. */
  datatype JavaObject =
    | CommonPath(path: Path)
    | JavaString(text: string)
    | NioPath(names: Path)

  function ContainsObject(s: set<Path>, o: JavaObject): (r: bool)
    ensures r ==> o.CommonPath?
    ensures o.CommonPath? ==> (r <==> o.path in s)
  {
    o.CommonPath? && o.path in s
  }

  /** `common.Path.getPath()`: components joined by "/" after a leading "/". */
  function PathText(p: Path): string
    decreases |p|
  {
    if p == [] then "/" else "/" + p[0] + (if |p| == 1 then "" else PathText(p[1..]))
  }

  // ---------------------------------------------------------------------
  // lock (NamingServer.java:140-177), the queueing half
  // ---------------------------------------------------------------------

  /** `lock(path, exclusive)` up to the point its request is queued: a path
      the server does not know is refused; otherwise the request joins the
      tail of the wait queue and nothing else changes. */
  function Lock(s: NamingState, p: Path, exclusive: bool): (r: Result<NamingState>)
    ensures r.Failure? <==> p !in s.serverFiles
    ensures r.Failure? ==> r.error == NotFound
    ensures r.Success? ==>
      && r.value.scheduler.queue == s.scheduler.queue + [Request(p, exclusive)]
      && r.value.scheduler.locks == s.scheduler.locks
      && r.value.scheduler.signalled == s.scheduler.signalled
      && r.value.scheduler.seen == s.scheduler.seen
      && r.value.catalog == s.catalog && r.value.serverFiles == s.serverFiles && r.value.servers == s.servers
  {
    if p !in s.serverFiles then Failure(NotFound)
    else Success(s.(scheduler := s.scheduler.(queue := s.scheduler.queue + [Request(p, exclusive)])))
  }

  // ---------------------------------------------------------------------
  // delete (NamingServer.java:352-406)
  // ---------------------------------------------------------------------

  /** Index of the first replica whose remote `delete` returned false, or
      the number of replicas when all succeeded. The fan-out loop stops
      there: later replicas are never called. */
  function FirstFailure(replies: seq<bool>): (k: nat)
    ensures k <= |replies|
    ensures forall j :: 0 <= j < k ==> replies[j]
    ensures k < |replies| ==> !replies[k]
    decreases |replies|
  {
    if replies == [] then 0
    else if !replies[0] then 0
    else 1 + FirstFailure(replies[1..])
  }

  /** How many remote `delete` calls the fan-out makes. */
  function ReplicasCalled(replies: seq<bool>): (n: nat)
    ensures n <= |replies|
    ensures forall j :: 0 <= j < n - 1 ==> replies[j]
    ensures n < |replies| ==> n > 0 && !replies[n - 1]
    ensures (forall j :: 0 <= j < |replies| ==> replies[j]) ==> n == |replies|
  {
    var k := FirstFailure(replies);
    if k < |replies| then k + 1 else k
  }

  /** The body of `delete` after its guard, as written: fan out to the
      replicas recorded for the path (no list is a dereferenced null); on
      the first `false` return `false` with nothing changed; when all agree,
      remove the entry from the tree and drop the path's stub lists. The
      `serverfiles.remove` of the path's text removes nothing. */
  function DeleteAfterGuard(s: NamingState, p: Path, replies: seq<bool>): (r: Exec<NamingState, bool>)
    requires p in s.catalog.commandStubs ==> |replies| == |s.catalog.commandStubs[p]|
    ensures r.result != Success(true) ==> r.state == s
    ensures p !in s.catalog.commandStubs ==> r.result == Failure(NullPointer)
    ensures p in s.catalog.commandStubs ==>
      (r.result == Success(false) <==> exists j :: 0 <= j < |replies| && !replies[j])
    ensures p in s.catalog.commandStubs && (forall j :: 0 <= j < |replies| ==> replies[j]) ==>
      && (r.result == Success(true) <==> RemoveEntry(s.catalog.tree, p).Success?)
      && (RemoveEntry(s.catalog.tree, p).Failure? ==> r == Exec(s, Failure(NullPointer)))
    ensures r.result == Success(true) ==>
      && (forall j :: 0 <= j < |replies| ==> replies[j])
      && RemoveEntry(s.catalog.tree, p).Success?
      && r.state == s.(catalog := Catalog(RemoveEntry(s.catalog.tree, p).value,
                                          s.catalog.commandStubs - {p},
                                          s.catalog.clientStubs - {p}))
  {
    if p !in s.catalog.commandStubs then Exec(s, Failure(NullPointer))
    else if FirstFailure(replies) < |replies| then Exec(s, Success(false))
    else match RemoveEntry(s.catalog.tree, p)
      case Failure(e) => Exec(s, Failure(e))
      case Success(t) =>
        Exec(s.(catalog := Catalog(t, s.catalog.commandStubs - {p}, s.catalog.clientStubs - {p})),
             Success(true))
  }

  /** `delete` with its guard and its `serverfiles.remove` given the path's
      TEXT, as NamingServer.java:355 and :393 write them (`asWritten`), or
      the path itself. */
  function DeleteGuarded(s: NamingState, p: Path, replies: seq<bool>, asWritten: bool): Exec<NamingState, bool>
    requires p in s.catalog.commandStubs ==> |replies| == |s.catalog.commandStubs[p]|
  {
    var known := if asWritten then ContainsObject(s.serverFiles, JavaString(PathText(p))) else p in s.serverFiles;
    if !known then Exec(s, Failure(NotFound))
    else
      var r := DeleteAfterGuard(s, p, replies);
      if !asWritten && r.result == Success(true) then Exec(r.state.(serverFiles := s.serverFiles - {p}), r.result)
      else r
  }

  /** `delete` as written: the guard asks a `Set<common.Path>` whether it
      contains the path's TEXT (NamingServer.java:355). */
  function DeleteAsWritten(s: NamingState, p: Path, replies: seq<bool>): (r: Exec<NamingState, bool>)
    requires p in s.catalog.commandStubs ==> |replies| == |s.catalog.commandStubs[p]|
  {
    DeleteGuarded(s, p, replies, true)
  }

  /** `delete` as evidently intended: the guard and the final removal use
      the path itself. */
  function Delete(s: NamingState, p: Path, replies: seq<bool>): (r: Exec<NamingState, bool>)
    requires p in s.catalog.commandStubs ==> |replies| == |s.catalog.commandStubs[p]|
    ensures p !in s.serverFiles ==> r == Exec(s, Failure(NotFound))
    ensures r.result != Success(true) ==> r.state == s
    ensures p in s.serverFiles && p in s.catalog.commandStubs ==>
      (r.result == Success(false) <==> exists j :: 0 <= j < |replies| && !replies[j])
    ensures p in s.serverFiles && p !in s.catalog.commandStubs ==> r == Exec(s, Failure(NullPointer))
    ensures p in s.serverFiles && p in s.catalog.commandStubs && (forall j :: 0 <= j < |replies| ==> replies[j]) ==>
      && (r.result == Success(true) <==> RemoveEntry(s.catalog.tree, p).Success?)
      && (RemoveEntry(s.catalog.tree, p).Failure? ==> r == Exec(s, Failure(NullPointer)))
    ensures r.result == Success(true) ==>
      && p in s.serverFiles
      && r.state.serverFiles == s.serverFiles - {p}
      && r.state.catalog.commandStubs.Keys == s.catalog.commandStubs.Keys - {p}
      && r.state.catalog.clientStubs.Keys == s.catalog.clientStubs.Keys - {p}
      && (forall q :: q != p ==>
            && StubsOf(r.state.catalog.commandStubs, q) == StubsOf(s.catalog.commandStubs, q)
            && StubsOf(r.state.catalog.clientStubs, q) == StubsOf(s.catalog.clientStubs, q))
      && RemoveEntry(s.catalog.tree, p).Success?
      && r.state.catalog.tree == RemoveEntry(s.catalog.tree, p).value
      && r.state.servers == s.servers && r.state.scheduler == s.scheduler
  {
    DeleteGuarded(s, p, replies, false)
  }

  /** The replies of replicas the fan-out never calls make no difference:
      two reply sequences that agree on the calls made give the same
      outcome. */
  lemma DeleteReadsCalledReplies(s: NamingState, p: Path, replies: seq<bool>, other: seq<bool>)
    requires p in s.catalog.commandStubs ==> |replies| == |s.catalog.commandStubs[p]|
    requires |other| == |replies|
    requires other[..ReplicasCalled(replies)] == replies[..ReplicasCalled(replies)]
    ensures DeleteAfterGuard(s, p, other) == DeleteAfterGuard(s, p, replies)
    ensures Delete(s, p, other) == Delete(s, p, replies)
  {
    var n := ReplicasCalled(replies);
    var k := FirstFailure(replies);
    forall j | 0 <= j < n
      ensures other[j] == replies[j]
    {
      assert other[..n][j] == replies[..n][j];
    }
    assert FirstFailure(other) == k;
  }

  /** As written, `delete` refuses every path, registered or not, before any
      replica is contacted; the intended guard lets registered paths through. */
  lemma DeleteGuardDiscrepancy(s: NamingState, p: Path, replies: seq<bool>)
    requires p in s.catalog.commandStubs ==> |replies| == |s.catalog.commandStubs[p]|
    ensures DeleteAsWritten(s, p, replies) == Exec(s, Failure(NotFound))
    ensures p in s.serverFiles ==> Delete(s, p, replies).result != Failure(NotFound)
  {
  }

  /** After a successful delete of a file held directly by its parent, the
      parent no longer lists it and the path has no replicas left. */
  lemma DeleteRemovesFile(s: NamingState, p: Path, replies: seq<bool>)
    requires p in s.catalog.commandStubs ==> |replies| == |s.catalog.commandStubs[p]|
    requires Delete(s, p, replies).result == Success(true)
    requires FileName(p) in Walk(s.catalog.tree, Parent(p)).value.files
    requires FileName(p) !in Walk(s.catalog.tree, Parent(p)).value.subDirs
    ensures var after := Walk(Delete(s, p, replies).state.catalog.tree, Parent(p));
      after.Some? && FileName(p) !in after.value.files + after.value.subDirs.Keys
    ensures Delete(s, p, replies).state.serverFiles == s.serverFiles - {p}
  {
  }

  // ---------------------------------------------------------------------
  // createFile and createDirectory (NamingServer.java:276-350)
  // ---------------------------------------------------------------------

  /** The common body of `createFile` after its guard: choose the placement
      server (none chosen leaves a null stub to dereference), ask it to
      create the file, and on success record the path and insert it with
      that server's stubs. */
  function CreateFileAfterGuard(s: NamingState, p: Path, created: bool): (r: Exec<NamingState, bool>)
    requires |p| > 0
  {
    match Placement(s.servers)
    case None => Exec(s, Failure(NullPointer))
    case Some(i) =>
      if !created then Exec(s, Success(false))
      else
        var (c, _) := InsertFileRecords(s.catalog, [p], s.servers[i].command, s.servers[i].client);
        Exec(s.(catalog := c, serverFiles := s.serverFiles + {p}), Success(true))
  }

  /** `createFile` with its parent guard given a `java.nio.file.Path`, as
      NamingServer.java:284-285 writes it (`asWritten`), or the parent path
      itself. `subpath(0, n - 1)` of a path with fewer than two names throws
      first. */
  function CreateFileGuarded(s: NamingState, p: Path, created: bool, asWritten: bool): Exec<NamingState, bool>
  {
    if |p| <= 1 then Exec(s, Failure(IllegalArgument))
    else
      var known := if asWritten then ContainsObject(s.serverFiles, NioPath(Parent(p))) else Parent(p) in s.serverFiles;
      if !known then Exec(s, Failure(NotFound))
      else CreateFileAfterGuard(s, p, created)
  }

  /** `createFile` as written. */
  function CreateFileAsWritten(s: NamingState, p: Path, created: bool): (r: Exec<NamingState, bool>)
  {
    CreateFileGuarded(s, p, created, true)
  }

  /** `createFile` as evidently intended: the parent must be a known path. */
  function CreateFile(s: NamingState, p: Path, created: bool): (r: Exec<NamingState, bool>)
    ensures |p| <= 1 ==> r == Exec(s, Failure(IllegalArgument))
    ensures |p| > 1 && Parent(p) !in s.serverFiles ==> r == Exec(s, Failure(NotFound))
    ensures |p| > 1 && Parent(p) in s.serverFiles && Placement(s.servers).None? ==>
      r == Exec(s, Failure(NullPointer))
    ensures |p| > 1 && Parent(p) in s.serverFiles && Placement(s.servers).Some? && !created ==>
      r == Exec(s, Success(false))
    ensures r.result != Success(true) ==> r.state == s
    ensures r.result == Success(true) <==>
      |p| > 1 && Parent(p) in s.serverFiles && Placement(s.servers).Some? && created
    ensures r.result == Success(true) ==>
      var server := s.servers[Placement(s.servers).value];
      var twice := CreatesTopDirectory(s.catalog.tree, p);
      && r.state.serverFiles == s.serverFiles + {p}
      && r.state.catalog.tree == InsertFile(s.catalog.tree, p)
      && r.state.catalog.commandStubs.Keys == s.catalog.commandStubs.Keys + {p}
      && r.state.catalog.clientStubs.Keys == s.catalog.clientStubs.Keys + {p}
      && r.state.catalog.commandStubs[p] ==
           StubsOf(s.catalog.commandStubs, p) + (if twice then [server.command, server.command] else [server.command])
      && r.state.catalog.clientStubs[p] ==
           StubsOf(s.catalog.clientStubs, p) + (if twice then [server.client, server.client] else [server.client])
      && (forall q :: q != p ==>
            && StubsOf(r.state.catalog.commandStubs, q) == StubsOf(s.catalog.commandStubs, q)
            && StubsOf(r.state.catalog.clientStubs, q) == StubsOf(s.catalog.clientStubs, q))
      && r.state.servers == s.servers && r.state.scheduler == s.scheduler
  {
    if |p| <= 1 then CreateFileGuarded(s, p, created, false)
    else
      CreateFileRecordsStubs(s, p, created);
      CreateFileGuarded(s, p, created, false)
  }

  /** The stub lists a successful creation leaves: the new path gains the
      chosen server's pair (twice when the top-level directory is created
      with it) and no other path's lists change. */
  lemma CreateFileRecordsStubs(s: NamingState, p: Path, created: bool)
    requires |p| > 0
    ensures CreateFileAfterGuard(s, p, created).result == Success(true) ==>
      var server := s.servers[Placement(s.servers).value];
      var twice := CreatesTopDirectory(s.catalog.tree, p);
      var c := CreateFileAfterGuard(s, p, created).state.catalog;
      && c.tree == InsertFile(s.catalog.tree, p)
      && c.commandStubs.Keys == s.catalog.commandStubs.Keys + {p}
      && c.clientStubs.Keys == s.catalog.clientStubs.Keys + {p}
      && c.commandStubs[p] == StubsOf(s.catalog.commandStubs, p) + (if twice then [server.command, server.command] else [server.command])
      && c.clientStubs[p] == StubsOf(s.catalog.clientStubs, p) + (if twice then [server.client, server.client] else [server.client])
      && (forall q :: q != p ==>
            && StubsOf(c.commandStubs, q) == StubsOf(s.catalog.commandStubs, q)
            && StubsOf(c.clientStubs, q) == StubsOf(s.catalog.clientStubs, q))
  {
    if CreateFileAfterGuard(s, p, created).result == Success(true) {
      var server := s.servers[Placement(s.servers).value];
      assert [p][1..] == [];
      var c1 := InsertFileRecord(s.catalog, p, server.command, server.client).value;
      assert InsertFileRecords(s.catalog, [p], server.command, server.client) == (c1, true);
    }
  }

  /** As written, `createFile` never creates anything; the intended guard
      admits a file whose parent is known once some server has room. */
  lemma CreateFileGuardDiscrepancy(s: NamingState, p: Path, created: bool)
    ensures CreateFileAsWritten(s, p, created).result.Failure?
    ensures CreateFileAsWritten(s, p, created).state == s
    ensures |p| > 1 && Parent(p) in s.serverFiles && Placement(s.servers).Some? && created ==>
      CreateFile(s, p, created).result == Success(true)
  {
  }

  /** After a successful `createFile` of a name not among the root node's
      files, the parent directory resolves (so `isDirectory` says true for
      it) and holds the new name (so `list` returns it), while the path
      itself is not a subdirectory (so `isDirectory` says false for it,
      unless a directory of that name already existed). */
  lemma CreateFileThenQueries(s: NamingState, p: Path, created: bool)
    requires CreateFile(s, p, created).result == Success(true)
    requires FileName(p) !in s.catalog.tree.files
    ensures var t := CreateFile(s, p, created).state.catalog.tree;
      && Walk(t, Parent(p)).Some?
      && FileName(p) in Walk(t, Parent(p)).value.files
      && (Walk(s.catalog.tree, p).None? ==> Walk(t, p).None?)
  {
    var t := CreateFile(s, p, created).state.catalog.tree;
    InsertFileEffect(s.catalog.tree, p);
    WalkSnoc(t, Parent(p), FileName(p));
    WalkSnoc(s.catalog.tree, Parent(p), FileName(p));
    assert Parent(p) + [FileName(p)] == p;
  }

  /** The common body of `createDirectory` after its guard, over the
      evidently intended tree insertion. */
  function CreateDirectoryAfterGuard(s: NamingState, p: Path, created: bool): Exec<NamingState, bool>
  {
    match Placement(s.servers)
    case None => Exec(s, Failure(NullPointer))
    case Some(i) =>
      if !created then Exec(s, Success(false))
      else
        var (c, _) := InsertDirectoryRecord(s.catalog, p, s.servers[i].command, s.servers[i].client);
        Exec(s.(catalog := c, serverFiles := s.serverFiles + {p}), Success(true))
  }

  /** `createDirectory` with the same choice of parent guard
      (NamingServer.java:323-324). */
  function CreateDirectoryGuarded(s: NamingState, p: Path, created: bool, asWritten: bool): Exec<NamingState, bool>
  {
    if |p| <= 1 then Exec(s, Failure(IllegalArgument))
    else
      var known := if asWritten then ContainsObject(s.serverFiles, NioPath(Parent(p))) else Parent(p) in s.serverFiles;
      if !known then Exec(s, Failure(NotFound))
      else CreateDirectoryAfterGuard(s, p, created)
  }

  /** `createDirectory` as written. */
  function CreateDirectoryAsWritten(s: NamingState, p: Path, created: bool): (r: Exec<NamingState, bool>)
  {
    CreateDirectoryGuarded(s, p, created, true)
  }

  /** `createDirectory` as evidently intended. The remote result decides the
      answer; the tree insertion's own failure is swallowed, as the source
      ignores the insertion's status. */
  function CreateDirectory(s: NamingState, p: Path, created: bool): (r: Exec<NamingState, bool>)
    ensures |p| <= 1 ==> r == Exec(s, Failure(IllegalArgument))
    ensures |p| > 1 && Parent(p) !in s.serverFiles ==> r == Exec(s, Failure(NotFound))
    ensures |p| > 1 && Parent(p) in s.serverFiles && Placement(s.servers).None? ==>
      r == Exec(s, Failure(NullPointer))
    ensures |p| > 1 && Parent(p) in s.serverFiles && Placement(s.servers).Some? && !created ==>
      r == Exec(s, Success(false))
    ensures r.result != Success(true) ==> r.state == s
    ensures r.result == Success(true) <==>
      |p| > 1 && Parent(p) in s.serverFiles && Placement(s.servers).Some? && created
    ensures r.result == Success(true) ==>
      var server := s.servers[Placement(s.servers).value];
      && r.state.serverFiles == s.serverFiles + {p}
      && r.state.servers == s.servers && r.state.scheduler == s.scheduler
      && (InsertDirectory(s.catalog.tree, p).Failure? ==> r.state.catalog == s.catalog)
      && (InsertDirectory(s.catalog.tree, p).Success? ==>
            && r.state.catalog.tree == InsertDirectory(s.catalog.tree, p).value
            && r.state.catalog.commandStubs.Keys == s.catalog.commandStubs.Keys + {p}
            && r.state.catalog.clientStubs.Keys == s.catalog.clientStubs.Keys + {p}
            && r.state.catalog.commandStubs[p] == StubsOf(s.catalog.commandStubs, p) + [server.command]
            && r.state.catalog.clientStubs[p] == StubsOf(s.catalog.clientStubs, p) + [server.client]
            && (forall q :: q != p ==>
                  && StubsOf(r.state.catalog.commandStubs, q) == StubsOf(s.catalog.commandStubs, q)
                  && StubsOf(r.state.catalog.clientStubs, q) == StubsOf(s.catalog.clientStubs, q)))
  {
    CreateDirectoryGuarded(s, p, created, false)
  }

  /** As written, `createDirectory` never creates anything either. */
  lemma CreateDirectoryGuardDiscrepancy(s: NamingState, p: Path, created: bool)
    ensures CreateDirectoryAsWritten(s, p, created) == Exec(s, CreateDirectoryAsWritten(s, p, created).result)
    ensures CreateDirectoryAsWritten(s, p, created).result.Failure?
    ensures |p| > 1 && Parent(p) in s.serverFiles && Placement(s.servers).Some? && created ==>
      CreateDirectory(s, p, created).result == Success(true)
  {
  }

  // ---------------------------------------------------------------------
  // register (NamingServer.java:419-446)
  // ---------------------------------------------------------------------

  /** `register(client_stub, command_stub, files)`. The new server is
      recorded with the size it reports (a failed size call skips the
      record and registration goes on); its paths join `serverfiles`; then
      EVERY path of `serverfiles`, in the set's iteration order `order`,
      is inserted with the new server's stubs. The answer is always `null`:
      no duplicate is ever reported.

      `storageServerStubs` is a hash set (NamingServer.java:429): `pool` is
      its iteration order once the new record is added. It holds each
      record once, so an identical record already present is not added
      again, and the new record may come anywhere in it. */
  function Register(s: NamingState, client: StorageStub, command: CommandStub, size: Option<int>,
                    files: seq<Path>, order: seq<Path>, pool: seq<ServerRecord>): (r: (NamingState, Option<seq<Path>>))
    requires Distinct(order)
    requires forall q :: q in order <==> q in s.serverFiles || q in files
    requires size.Some? ==>
      Distinct(pool) && forall x :: x in pool <==> x in s.servers || x == ServerRecord(command, client, size.value)
  {
    var servers := if size.Some? then pool else s.servers;
    var serverFiles := s.serverFiles + Elems(files);
    var (c, _) := InsertFileRecords(s.catalog, order, command, client);
    (NamingState(c, serverFiles, servers, s.scheduler), None)
  }

  /** What registration does: the reply is `null`; the server is recorded
      exactly when its size is known, and only once even when an identical
      record was already there; its paths become known; the lock
      state is left alone; and, when no path is empty, every known path, old
      or new, gains the new server's stub pair -- twice for a path whose
      insertion created the root's first-level directory, which needs that
      directory to be missing beforehand. */
  lemma RegisterEffect(s: NamingState, client: StorageStub, command: CommandStub, size: Option<int>,
                       files: seq<Path>, order: seq<Path>, pool: seq<ServerRecord>)
    requires Distinct(order)
    requires forall q :: q in order <==> q in s.serverFiles || q in files
    requires size.Some? ==>
      Distinct(pool) && forall x :: x in pool <==> x in s.servers || x == ServerRecord(command, client, size.value)
    ensures var (s', reply) := Register(s, client, command, size, files, order, pool);
      && reply.None?
      && (size.None? ==> s'.servers == s.servers)
      && (size.Some? ==> forall x :: x in s'.servers <==> x in s.servers || x == ServerRecord(command, client, size.value))
      && s'.serverFiles == s.serverFiles + Elems(files)
      && s'.scheduler == s.scheduler
    ensures size.Some? && Distinct(s.servers) ==>
      |Register(s, client, command, size, files, order, pool).0.servers| ==
        |s.servers| + (if ServerRecord(command, client, size.value) in s.servers then 0 else 1)
    ensures [] !in order ==>
      var s' := Register(s, client, command, size, files, order, pool).0;
      && s'.catalog.commandStubs.Keys == s.catalog.commandStubs.Keys + s'.serverFiles
      && s'.catalog.clientStubs.Keys == s.catalog.clientStubs.Keys + s'.serverFiles
      && (forall q :: q in s'.serverFiles ==> GainsStubs(s.catalog, s'.catalog, q, command, client))
      && (forall q :: q in s'.serverFiles ==> HasFile(s'.catalog.tree, q))
  {
    if size.Some? && Distinct(s.servers) {
      var rec := ServerRecord(command, client, size.value);
      DistinctCardinality(s.servers);
      DistinctCardinality(pool);
      assert (set x | x in pool) == (set x | x in s.servers) + {rec};
    }
    if [] !in order {
      var s' := Register(s, client, command, size, files, order, pool).0;
      InsertFileRecordsKeys(s.catalog, order, command, client);
      assert Elems(order) == s'.serverFiles;
      forall q | q in s'.serverFiles
        ensures GainsStubs(s.catalog, s'.catalog, q, command, client)
      {
        InsertFileRecordsAppends(s.catalog, order, command, client, q);
      }
      forall q | q in s'.serverFiles
        ensures HasFile(s'.catalog.tree, q)
      {
        InsertFileRecordsTree(s.catalog, order, command, client, q);
      }
    }
  }

  /** A path that a second server also holds is not reported back to it:
      the reply is `null` and the path's list keeps the earlier servers'
      stubs and gains the new server's, once when its top-level directory
      already existed and at most twice otherwise. */
  lemma RegisterKeepsDuplicates(s: NamingState, client: StorageStub, command: CommandStub, size: Option<int>,
                                files: seq<Path>, order: seq<Path>, pool: seq<ServerRecord>, p: Path)
    requires Distinct(order)
    requires forall q :: q in order <==> q in s.serverFiles || q in files
    requires size.Some? ==>
      Distinct(pool) && forall x :: x in pool <==> x in s.servers || x == ServerRecord(command, client, size.value)
    requires [] !in order
    requires p in files && p in s.catalog.commandStubs
    ensures var (s', reply) := Register(s, client, command, size, files, order, pool);
      && reply.None?
      && p in s'.catalog.commandStubs
      && s.catalog.commandStubs[p] < s'.catalog.commandStubs[p]
      && |s'.catalog.commandStubs[p]| <= |s.catalog.commandStubs[p]| + 2
      && (forall i :: |s.catalog.commandStubs[p]| <= i < |s'.catalog.commandStubs[p]| ==>
            s'.catalog.commandStubs[p][i] == command)
      && (p[0] in s.catalog.tree.subDirs ==> s'.catalog.commandStubs[p] == s.catalog.commandStubs[p] + [command])
  {
    assert p in order;
    InsertFileRecordsKeys(s.catalog, order, command, client);
    InsertFileRecordsAppends(s.catalog, order, command, client, p);
  }
}

=== FILE: outcomes.dfy ===
/** Failure-carrying values shared by every module of the naming-server model.

    The Java code reports failures three ways: by throwing, by returning
    `false`, or by returning `null`. Thrown exceptions become `Failure(e)`;
    a `null` that the caller can observe becomes `None`. When a method
    mutates state and then throws, `Exec` carries both the state reached so
    far and the thrown error. */
module Outcomes {

  datatype Option<+T> = None | Some(value: T)

  /** The Java exception classes the core can raise. */
  datatype Error =
    | NotFound          // java.io.FileNotFoundException
    | IllegalArgument   // java.lang.IllegalArgumentException
    | NullPointer       // java.lang.NullPointerException (a dereferenced null)
    | IllegalMonitorState  // java.lang.IllegalMonitorStateException (a condition signalled without its lock)

  datatype Result<+T> = Success(value: T) | Failure(error: Error)

  /** The state a Java method leaves behind together with how it ended:
      a normal return of a `T`, or an exception thrown after the mutations
      already recorded in `state`. */
  datatype Exec<+S, +T> = Exec(state: S, result: Result<T>)
}

=== FILE: paths.dfy ===
/** Paths of the distributed file system.

    A path is the sequence of its components, including the leading root
    component: the text "/data/a/b.txt" is `["data", "a", "b.txt"]`, and "/"
    is the empty sequence. `common.Path` is not part of this model; its
    `getParentPathList` is given here by its one relevant property: it lists
    distinct strict ancestors of the path. */
module Paths {

  type Path = seq<string>

  /** Name of the root directory node of the tree. */
  const RootName: string := "data"

  /** `q` is `p` or one of its ancestors. */
  predicate IsPrefix(q: Path, p: Path) {
    |q| <= |p| && p[..|q|] == q
  }

  /** Two paths that start alike are in the prefix relation exactly when
      their remainders are. */
  lemma PrefixTail(q: Path, p: Path)
    requires q != [] && p != [] && q[0] == p[0]
    ensures IsPrefix(q, p) <==> IsPrefix(q[1..], p[1..])
  {
    assert q == [q[0]] + q[1..];
    if |q| <= |p| {
      assert p[..|q|] == [p[0]] + p[1..][..|q| - 1];
    }
  }

  /** The final component, the name of the file or directory itself. */
  function FileName(p: Path): string
    requires |p| > 0
  {
    p[|p| - 1]
  }

  /** The path of the enclosing directory. */
  function Parent(p: Path): (r: Path)
    requires |p| > 0
    ensures IsPrefix(r, p) && |r| == |p| - 1
    ensures r + [FileName(p)] == p
  {
    p[..|p| - 1]
  }

  /** The paths occurring in `s`. */
  function Elems(s: seq<Path>): set<Path> {
    set a | a in s
  }

  /** A non-empty sequence's elements are its head and its tail's elements. */
  lemma ElemsCons(s: seq<Path>)
    requires s != []
    ensures Elems(s) == {s[0]} + Elems(s[1..])
  {
    assert s == [s[0]] + s[1..];
  }

  predicate Distinct<T(==)>(s: seq<T>) {
    forall i, j :: 0 <= i < j < |s| ==> s[i] != s[j]
  }

  /** The head of a sequence without repeats does not recur in its tail,
      and the tail has no repeats either. */
  lemma DistinctTail<T>(s: seq<T>)
    requires s != [] && Distinct(s)
    ensures s[0] !in s[1..] && Distinct(s[1..])
  {
    assert forall i :: 0 <= i < |s[1..]| ==> s[1..][i] == s[i + 1];
  }

  /** A sequence without repeats has as many elements as its set of
      elements. */
  lemma {:induction false} DistinctCardinality<T>(s: seq<T>)
    requires Distinct(s)
    ensures |set x | x in s| == |s|
    decreases |s|
  {
    if s != [] {
      DistinctTail(s);
      DistinctCardinality(s[1..]);
      assert (set x | x in s) == (set x | x in s[1..]) + {s[0]};
    }
  }

  /** Ancestors of `p`, shortest first: "/", "/data", "/data/a" for
      "/data/a/b.txt". */
  function ParentPathList(p: Path): (r: seq<Path>)
    ensures |r| == |p|
    ensures forall i :: 0 <= i < |r| ==> IsPrefix(r[i], p) && r[i] != p
    ensures Distinct(r)
    ensures p !in r
  {
    seq(|p|, i requires 0 <= i < |p| => p[..i])
  }
}

=== FILE: storage_registry.dfy ===
/** Storage bookkeeping of the naming server: the registered storage
    servers with their advertised sizes, the per-path lists of command and
    client stubs (`commandStubsForFile`, `clientStubsForFile`), and the
    max-capacity placement rule used by `createFile` and `createDirectory`.

    Stubs are remote handles; here each is an opaque identifier. Stub lists
    are keyed by the path itself (the source keys them by the path's text,
    which names the path uniquely). */
module StorageRegistry {
  import opened Outcomes
  import opened Paths
  import opened Directory
  import opened DirectoryTree

  /** Handle for a storage server's administrative interface (`Command`). */
  datatype CommandStub = CommandStub(id: nat)

  /** Handle for a storage server's data interface (`Storage`). */
  datatype StorageStub = StorageStub(id: nat)

  /** One entry of `storageServerStubs`: the map holding "command_stub",
      "client_stub" and "size". */
  datatype ServerRecord = ServerRecord(command: CommandStub, client: StorageStub, size: int)

  /** The directory tree together with the per-path stub lists. */
  datatype Catalog = Catalog(
    tree: Dir,
    commandStubs: map<Path, seq<CommandStub>>,
    clientStubs: map<Path, seq<StorageStub>>)

  /** The `containsKey`/`put(new ArrayList())`/`get(...).add(x)` idiom:
      appends `x` to the list of `p`, creating an empty list first. */
  function AppendStub<T>(m: map<Path, seq<T>>, p: Path, x: T): (r: map<Path, seq<T>>)
    ensures r.Keys == m.Keys + {p}
    ensures r[p] == (if p in m then m[p] else []) + [x]
    ensures forall q :: q in m && q != p ==> r[q] == m[q]
  {
    m[p := (if p in m then m[p] else []) + [x]]
  }

  // ---------------------------------------------------------------------
  // Placement (NamingServer.java:290-300, repeated at :328-338)
  // ---------------------------------------------------------------------

  /** The index of the server the placement loop ends up holding, scanning
      `servers` in iteration order: it starts from size 0 and takes a
      server only when its size is strictly larger than the best so far. */
  function Placement(servers: seq<ServerRecord>): (r: Option<nat>)
    ensures r.Some? ==> r.value < |servers|
    ensures r.Some? ==> servers[r.value].size > 0
    ensures r.Some? ==> forall j :: 0 <= j < |servers| ==> servers[j].size <= servers[r.value].size
    ensures r.Some? ==> forall j :: 0 <= j < r.value ==> servers[j].size < servers[r.value].size
    ensures r.None? <==> forall j :: 0 <= j < |servers| ==> servers[j].size <= 0
    decreases |servers|
  {
    if servers == [] then None
    else
      var earlier := Placement(servers[..|servers| - 1]);
      var best := if earlier.Some? then servers[earlier.value].size else 0;
      if servers[|servers| - 1].size > best then Some(|servers| - 1) else earlier
  }

  // ---------------------------------------------------------------------
  // Inserting records (addFilesToDirectoryTree, addDirectoriesToDirectoryTree)
  // ---------------------------------------------------------------------

  /** The list recorded for `p`, empty when there is none. */
  function StubsOf<T>(m: map<Path, seq<T>>, p: Path): seq<T> {
    if p in m then m[p] else []
  }

  /** Whether inserting the file `p` creates the directory of its first
      component under the root node. The loop then records that new
      directory's stubs under `path.toString()` (NamingServer.java:472-474),
      which is the text of the file path itself: the file gets an extra
      stub pair. */
  predicate CreatesTopDirectory(tree: Dir, p: Path) {
    |p| >= 2 && FileName(p) !in tree.files && p[0] !in tree.subDirs
  }

  /** One iteration of the loop of `addFilesToDirectoryTree`
      (NamingServer.java:453-515): the tree insertion, with the extra stub
      pair when it creates the top-level directory, then the file's own
      command stub and client stub. A path with no components has no file
      name and raises a dereferenced null. */
  function InsertFileRecord(c: Catalog, p: Path, cmd: CommandStub, clnt: StorageStub): (r: Result<Catalog>)
    ensures r.Failure? <==> |p| == 0
    ensures r.Success? ==> r.value.tree == InsertFile(c.tree, p)
    ensures r.Success? ==> r.value.commandStubs.Keys == c.commandStubs.Keys + {p}
    ensures r.Success? ==> r.value.clientStubs.Keys == c.clientStubs.Keys + {p}
    ensures r.Success? ==>
      r.value.commandStubs[p] == StubsOf(c.commandStubs, p) + (if CreatesTopDirectory(c.tree, p) then [cmd, cmd] else [cmd])
    ensures r.Success? ==>
      r.value.clientStubs[p] == StubsOf(c.clientStubs, p) + (if CreatesTopDirectory(c.tree, p) then [clnt, clnt] else [clnt])
    ensures r.Success? ==> forall q :: q in c.commandStubs && q != p ==> r.value.commandStubs[q] == c.commandStubs[q]
    ensures r.Success? ==> forall q :: q in c.clientStubs && q != p ==> r.value.clientStubs[q] == c.clientStubs[q]
  {
    if |p| == 0 then Failure(NullPointer)
    else
      var extra := CreatesTopDirectory(c.tree, p);
      var cmds := if extra then AppendStub(c.commandStubs, p, cmd) else c.commandStubs;
      var clnts := if extra then AppendStub(c.clientStubs, p, clnt) else c.clientStubs;
      Success(Catalog(InsertFile(c.tree, p), AppendStub(cmds, p, cmd), AppendStub(clnts, p, clnt)))
  }

  /** Inserting the same file path twice gives the tree of one insertion,
      but each insertion appends its own pair of stubs; only the first can
      add the extra pair, since afterwards the top-level directory exists. */
  lemma InsertFileRecordTwice(c: Catalog, p: Path, cmd: CommandStub, clnt: StorageStub)
    requires |p| > 0
    ensures var once := InsertFileRecord(c, p, cmd, clnt).value;
      var twice := InsertFileRecord(once, p, cmd, clnt).value;
      && twice.tree == once.tree
      && twice.commandStubs[p] ==
           StubsOf(c.commandStubs, p) + (if CreatesTopDirectory(c.tree, p) then [cmd, cmd] else [cmd]) + [cmd]
      && twice.clientStubs[p] ==
           StubsOf(c.clientStubs, p) + (if CreatesTopDirectory(c.tree, p) then [clnt, clnt] else [clnt]) + [clnt]
  {
    InsertFileIdempotent(c.tree, p);
    InsertFileTopLevel(c.tree, p);
  }

  /** The whole loop of `addFilesToDirectoryTree` over the set's iteration
      order. The first path that raises aborts the loop (the `catch` returns
      `false`); the paths inserted before it keep their effect. */
  function InsertFileRecords(c: Catalog, order: seq<Path>, cmd: CommandStub, clnt: StorageStub): (r: (Catalog, bool))
    decreases |order|
  {
    if order == [] then (c, true)
    else match InsertFileRecord(c, order[0], cmd, clnt)
      case Failure(_) => (c, false)
      case Success(c1) => InsertFileRecords(c1, order[1..], cmd, clnt)
  }

  /** The loop reports success exactly when no path in it is empty. */
  lemma {:induction false} InsertFileRecordsStatus(c: Catalog, order: seq<Path>, cmd: CommandStub, clnt: StorageStub)
    ensures InsertFileRecords(c, order, cmd, clnt).1 <==> [] !in order
    decreases |order|
  {
    if order != [] && |order[0]| > 0 {
      InsertFileRecordsStatus(InsertFileRecord(c, order[0], cmd, clnt).value, order[1..], cmd, clnt);
      assert order == [order[0]] + order[1..];
    }
  }

  /** A completed loop has stub lists for exactly the old paths and the
      inserted ones. */
  lemma {:induction false} InsertFileRecordsKeys(c: Catalog, order: seq<Path>, cmd: CommandStub, clnt: StorageStub)
    requires [] !in order
    ensures InsertFileRecords(c, order, cmd, clnt).0.commandStubs.Keys == c.commandStubs.Keys + Elems(order)
    ensures InsertFileRecords(c, order, cmd, clnt).0.clientStubs.Keys == c.clientStubs.Keys + Elems(order)
    decreases |order|
  {
    if order != [] {
      assert order[0] != [];
      var c1 := InsertFileRecord(c, order[0], cmd, clnt).value;
      assert forall q :: q in order[1..] ==> q in order;
      InsertFileRecordsKeys(c1, order[1..], cmd, clnt);
      ElemsCons(order);
    }
  }

  /** A completed loop records in the tree every path it inserts and every
      file that was recorded before. */
  lemma {:induction false} InsertFileRecordsTree(c: Catalog, order: seq<Path>, cmd: CommandStub, clnt: StorageStub, q: Path)
    requires [] !in order
    requires q in order || HasFile(c.tree, q)
    ensures HasFile(InsertFileRecords(c, order, cmd, clnt).0.tree, q)
    decreases |order|
  {
    if order != [] {
      assert order[0] != [];
      var c1 := InsertFileRecord(c, order[0], cmd, clnt).value;
      if q == order[0] {
        InsertFileHas(c.tree, q);
      } else if HasFile(c.tree, q) {
        InsertFileKeeps(c.tree, order[0], q);
      } else {
        assert q in order[1..];
      }
      assert forall x :: x in order[1..] ==> x in order;
      InsertFileRecordsTree(c1, order[1..], cmd, clnt, q);
    }
  }

  /** A path the loop does not insert keeps both of its lists. */
  lemma {:induction false} InsertFileRecordsFrame(c: Catalog, order: seq<Path>, cmd: CommandStub, clnt: StorageStub, q: Path)
    requires q !in order
    ensures StubsOf(InsertFileRecords(c, order, cmd, clnt).0.commandStubs, q) == StubsOf(c.commandStubs, q)
    ensures StubsOf(InsertFileRecords(c, order, cmd, clnt).0.clientStubs, q) == StubsOf(c.clientStubs, q)
    decreases |order|
  {
    if order != [] && order[0] != [] {
      assert forall x :: x in order[1..] ==> x in order;
      InsertFileRecordsFrame(InsertFileRecord(c, order[0], cmd, clnt).value, order[1..], cmd, clnt, q);
    }
  }

  /** `q`'s lists in `after` are those in `before` with one more stub of
      each kind, or with two more when `q` has at least two components and
      `before`'s root node has no directory named by the first. */
  predicate GainsStubs(before: Catalog, after: Catalog, q: Path, cmd: CommandStub, clnt: StorageStub) {
    || (&& StubsOf(after.commandStubs, q) == StubsOf(before.commandStubs, q) + [cmd]
        && StubsOf(after.clientStubs, q) == StubsOf(before.clientStubs, q) + [clnt])
    || (&& |q| >= 2 && q[0] !in before.tree.subDirs
        && StubsOf(after.commandStubs, q) == StubsOf(before.commandStubs, q) + [cmd, cmd]
        && StubsOf(after.clientStubs, q) == StubsOf(before.clientStubs, q) + [clnt, clnt])
  }

  /** A single insertion gives its own path its stubs in that way. */
  lemma InsertFileRecordGains(c: Catalog, p: Path, cmd: CommandStub, clnt: StorageStub)
    requires |p| > 0
    ensures GainsStubs(c, InsertFileRecord(c, p, cmd, clnt).value, p, cmd, clnt)
  {
  }

  /** A gain measured from a catalog whose lists for `q` agree with `c`'s
      and whose root has at least `c`'s directories is also a gain from `c`. */
  lemma GainsStubsFrom(c: Catalog, c1: Catalog, r: Catalog, q: Path, cmd: CommandStub, clnt: StorageStub)
    requires GainsStubs(c1, r, q, cmd, clnt)
    requires StubsOf(c1.commandStubs, q) == StubsOf(c.commandStubs, q)
    requires StubsOf(c1.clientStubs, q) == StubsOf(c.clientStubs, q)
    requires c.tree.subDirs.Keys <= c1.tree.subDirs.Keys
    ensures GainsStubs(c, r, q, cmd, clnt)
  {
  }

  /** Over distinct non-empty paths, each inserted path gains one stub of
      each kind, or two of each when its insertion created its top-level
      directory, which needs that directory to be missing at the start. */
  lemma {:induction false} InsertFileRecordsAppends(c: Catalog, order: seq<Path>, cmd: CommandStub, clnt: StorageStub, q: Path)
    requires [] !in order && Distinct(order) && q in order
    ensures GainsStubs(c, InsertFileRecords(c, order, cmd, clnt).0, q, cmd, clnt)
    decreases |order|
  {
    DistinctTail(order);
    assert order[0] != [];
    var c1 := InsertFileRecord(c, order[0], cmd, clnt).value;
    var rest := order[1..];
    var r := InsertFileRecords(c1, rest, cmd, clnt).0;
    assert InsertFileRecords(c, order, cmd, clnt).0 == r;
    if q == order[0] {
      InsertFileRecordGains(c, q, cmd, clnt);
      InsertFileRecordsFrame(c1, rest, cmd, clnt, q);
    } else {
      assert q in rest;
      assert forall x :: x in rest ==> x in order;
      InsertFileTopLevel(c.tree, order[0]);
      InsertFileRecordsAppends(c1, rest, cmd, clnt, q);
      GainsStubsFrom(c, c1, r, q, cmd, clnt);
    }
  }

  /** `addDirectoriesToDirectoryTree` for the single directory `createDirectory`
      passes it (NamingServer.java:531-567), over the evidently intended tree
      insertion: when the tree insertion raises, the `catch` returns `false`
      before any stub is recorded. */
  function InsertDirectoryRecord(c: Catalog, p: Path, cmd: CommandStub, clnt: StorageStub): (r: (Catalog, bool))
    ensures !r.1 <==> InsertDirectory(c.tree, p).Failure?
    ensures !r.1 ==> r.0 == c
    ensures r.1 ==> r.0.tree == InsertDirectory(c.tree, p).value
    ensures r.1 ==> r.0.commandStubs.Keys == c.commandStubs.Keys + {p} && r.0.clientStubs.Keys == c.clientStubs.Keys + {p}
    ensures r.1 ==> r.0.commandStubs[p] == StubsOf(c.commandStubs, p) + [cmd]
    ensures r.1 ==> r.0.clientStubs[p] == StubsOf(c.clientStubs, p) + [clnt]
    ensures r.1 ==> forall q :: q != p ==>
      StubsOf(r.0.commandStubs, q) == StubsOf(c.commandStubs, q) && StubsOf(r.0.clientStubs, q) == StubsOf(c.clientStubs, q)
  {
    match InsertDirectory(c.tree, p)
    case Failure(_) => (c, false)
    case Success(t) => (Catalog(t, AppendStub(c.commandStubs, p, cmd), AppendStub(c.clientStubs, p, clnt)), true)
  }
}
